=== FILE: README.md ===
# Gestura authentication and session model

A Dafny model of the authentication and session layer of Gestura, a web
client for sign-language meetings, together with two small pieces of UI
state. The model covers:

- the FastAPI backend's `/api/auth` endpoints and their helpers: signup
  conflict detection, login check order, the bcrypt 72-byte limit, access
  token claims, the current-user dependency and the `User` model;
- the React client's shared HTTP client (token attachment, 401 purge), the
  session context (bootstrap, login, signup, logout), the sign-in form's
  validation and submit handler;
- the colour-theme preference and the meeting screen's side panel and
  participant strip.

Everything is pure functions over immutable values: a session is a record
of the user, the `loading` flag, browser storage, the requests sent and the
toasts shown. Each remote call takes its outcome as a parameter
(`Ok(data)` or `Err(HttpError)`). bcrypt hashing and verification and JWT
signing are function parameters. The MongoDB lookup `find_one` is a `found`
parameter constrained to be one of the matching documents. The clock is an
integer parameter in seconds. `window.location` is a redirect flag.

Modules follow the source files:

| module | file | models |
|---|---|---|
| `Utf8` | utf8.dfy | Python's strict UTF-8 codec |
| `UserModel` | user_model.dfy | backend/app/models/user.py |
| `UserStore` | user_store.dfy | the `users` collection, `find_one`, unique indexes |
| `AuthUtils` | auth_utils.dfy | backend/app/utils/auth.py |
| `AuthRouter` | auth_router.dfy | backend/app/routers/auth.py |
| `LocalStorage` | local_storage.dfy | `localStorage` and its two session keys |
| `ApiClient` | api_client.dfy | frontend/src/services/api.ts |
| `AuthContext` | auth_context.dfy | frontend/src/contexts/AuthContext.tsx |
| `LoginForm` | login_form.dfy | frontend/src/components/Login.tsx |
| `Theme` | theme.dfy | src/contexts/ThemeContext.tsx |
| `Meeting` | meeting.dfy | frontend/src/components/Translator.tsx |
| `Json`, `Wrappers`, `Bytes` | json.dfy, wrappers.dfy, bytes.dfy | `JSON.stringify` of the cached user; `Option`/`Result`; bytes and hex digits |

Behaviour worth noting:

- A failed login does not always leave the stored token alone. A wrong
  password comes back as 401, and the shared client's interceptor then
  removes `access_token` and `user` and redirects to `/login`
  (`AuthContext.WrongPasswordPurgesStorage`). A login whose `/me` call fails
  with a status other than 401 keeps the token it just stored.
- "Token present" means truthy. A stored empty string counts as no token
  for both the bootstrap and the request interceptor.
- After a signup whose nested login fails, there are two error toasts: the
  login's text, then the signup's text for the same error. The
  account-created notice never appears.

## Model

| member | source | states |
|---|---|---|
| Utf8.DecodeEncode | backend/app/utils/auth.py:36-46 | decoding the UTF-8 encoding of any string gives that string back, so text and byte passwords go through the same check |
| Utf8.EncodeDecode | backend/app/utils/auth.py:22-29 | whatever the decoder accepts re-encodes to exactly the bytes it read, so no overlong or otherwise non-canonical form is accepted |
| Utf8.ValidIffEncoding | backend/app/utils/auth.py:36-46 | bytes are refused as "not valid UTF-8" exactly when they are not the encoding of any string |
| AuthUtils.PasswordText | backend/app/utils/auth.py:22-29 | only byte input that is not valid UTF-8 is refused, always with 400 "Password bytes are not valid UTF-8"; any text it returns is what the bytes decode to |
| AuthUtils.VerifyPassword | backend/app/utils/auth.py:19-30 | text goes straight to the verifier; invalid bytes are refused with 400; valid bytes always reach the verifier, as their decoded text; the 72-byte limit is not applied here |
| AuthUtils.GetPasswordHash | backend/app/utils/auth.py:33-57 | a hash is produced exactly when the input is valid UTF-8 and at most 72 encoded bytes; invalid bytes are refused first with the UTF-8 message, and over-long input with the bcrypt-limit message; the hash is bcrypt of the decoded text |
| AuthUtils.HashAgreesOnEncoding | backend/app/utils/auth.py:36-46 | a string and its UTF-8 bytes are accepted, refused and hashed alike |
| AuthUtils.LimitCountsBytes | backend/app/utils/auth.py:46-55 | the limit is on bytes, not characters: 72 ASCII or 36 two-byte characters pass; 73 ASCII or 37 two-byte characters (74 bytes) are refused |
| AuthUtils.TokenClaims | backend/app/utils/auth.py:60-68 | the payload keeps every key of the input and adds `exp`; `exp` is now plus the delta when the delta is present and non-zero, otherwise now plus 30 minutes |
| AuthUtils.DecodeAccessToken | backend/app/utils/auth.py:73-88 | succeeds exactly when the verified payload has a string `sub` and returns it; every other case is 401 "Could not validate credentials" |
| AuthUtils.CreateAccessToken | backend/app/utils/auth.py:60-70 | the token is the signature of the `TokenClaims` payload; its properties are stated by `AuthUtils.TokenClaims` and `AuthUtils.TokenRoundTrip` |
| AuthUtils.TokenRoundTrip | backend/app/utils/auth.py:60-83 | a token created for an email decodes to that email for any requested lifetime, under the hypothesis that verification returns the signed payload; that hypothesis sets expiry aside |
| AuthUtils.GetCurrentUser | backend/app/utils/auth.py:91-115 | rejection order: undecodable token 401, then no document 401 "User not found", then inactive 400; a malformed `_id` never succeeds; success exactly when all checks pass, and the user returned is exactly the `User` built from the stored document `find_one` returned, so it is active and has the token's email |
| AuthUtils.CurrentUserIffActiveDocument | backend/app/utils/auth.py:95-115 | under the unique indexes, a token naming an email authenticates exactly when a stored, well-formed, not-inactive document has that email |
| UserModel.ValidateObjectId | backend/app/models/user.py:17-26 | `None` gives `None`; a string passes through unchanged; an ObjectId becomes a string that parses back to its bytes; only other values raise "Invalid ObjectId" |
| UserModel.UnhexHex | backend/app/models/user.py:22-23 | the hex rendering of an ObjectId parses back to the same bytes |
| UserModel.HexInjective | backend/app/models/user.py:22-23 | two ObjectIds with the same string form are the same ObjectId |
| UserModel.FromDocument | backend/app/models/user.py:7-26 | building a `User` fails only for an invalid `_id`; a missing `is_active` means active; a missing `created_at` takes the clock; other fields are copied |
| UserModel.Defaults | backend/app/models/user.py:13-15 | a document with only the required fields becomes an active user with no `updated_at` and no id |
| UserStore.FindByEmailIsDeterministic | backend/app/main.py:17-18 | with unique emails and usernames, a lookup by email has exactly one possible answer |
| AuthRouter.Signup | backend/app/routers/auth.py:17-56 | any match is a 400; its text is "Email already registered" exactly when the found document has the new email, else "Username already taken"; without a match, success exactly when the password fits in 72 bytes; a new document is active, has no `updated_at`, stores the bcrypt hash and the assigned id |
| AuthRouter.SignupConflictIffMatch | backend/app/routers/auth.py:23-40 | signup is refused as a conflict exactly when some stored document shares the email or the username |
| AuthRouter.ConflictWithoutEmailIsUsername | backend/app/routers/auth.py:30-40 | when no document has the new email, every conflict says "Username already taken", whichever match the lookup returns |
| AuthRouter.SignupKeepsKeysUnique | backend/app/routers/auth.py:23-53 | a successful signup keeps emails and usernames unique across the store |
| AuthRouter.Login | backend/app/routers/auth.py:59-100 | a missing user or wrong password gives 401 "Incorrect email or password"; a verified but inactive user gives 400; success exactly otherwise, with `sub` equal to the email, `exp` 30 minutes ahead, type "bearer" and cookie `access_token` = "Bearer " + token |
| AuthRouter.WrongPasswordBeforeInactive | backend/app/routers/auth.py:70-81 | an inactive account with a wrong password gets 401, not 400 |
| AuthRouter.LoginThenMe | backend/app/routers/auth.py:84-100 | the token a login returns authenticates the same account on `/me` |
| AuthRouter.Logout | backend/app/routers/auth.py:103-107 | logout always answers and deletes the `access_token` cookie |
| LocalStorage.ClearSession | frontend/src/services/api.ts:33-34 | both session keys are gone and every other key is untouched |
| ApiClient.AttachToken | frontend/src/services/api.ts:14-20 | `Authorization` is `Bearer <token>` when a truthy token is stored; otherwise the headers are unchanged; no other header changes |
| ApiClient.AfterResponse | frontend/src/services/api.ts:28-38 | a 401 clears both keys and redirects to `/login`; any other outcome leaves the client unchanged |
| ApiClient.Send | frontend/src/services/api.ts:14-38 | the caller receives the outcome unchanged, so successes pass through and errors are still rejected; the request is logged with the attached headers; storage changes only on 401 |
| ApiClient.PurgeIdempotent | frontend/src/services/api.ts:31-36 | a second 401 purge changes nothing more |
| ApiClient.LoginCall | frontend/src/services/api.ts:48-54 | one POST to the login path is appended, earlier requests kept; the token is stored only when the response carries a truthy `access_token`; errors leave storage alone except for the 401 purge |
| ApiClient.SignupCall | frontend/src/services/api.ts:43-46 | one POST to the signup path with the three fields; the outcome passes through; storage changes only by the 401 purge, which also sets the redirect |
| ApiClient.MeCall | frontend/src/services/api.ts:63-66 | one GET to `/me` carrying the headers the request interceptor builds from storage; the outcome passes through; storage changes only by the 401 purge, which also sets the redirect |
| ApiClient.LogoutCall | frontend/src/services/api.ts:56-61 | both keys are removed once the POST succeeds; a failed POST leaves them, apart from the 401 purge; the redirect is set exactly on a 401 |
| AuthContext.Stringify | frontend/src/contexts/AuthContext.tsx:55 | the JSON text cached under `user`: the five fields of the client's `User`, strings quoted and escaped |
| AuthContext.Provided | frontend/src/contexts/AuthContext.tsx:110-117 | `isAuthenticated` holds exactly when a user is set |
| AuthContext.Mount | frontend/src/contexts/AuthContext.tsx:25-26 | the provider starts with no user, `loading` true and nothing sent |
| AuthContext.Bootstrap | frontend/src/contexts/AuthContext.tsx:29-46 | `loading` ends false whatever happens; with no truthy token nothing is sent and nothing changes; on `/me` success the user is set; on failure both keys are removed and the user is untouched; the page redirects exactly when `/me` answers 401; no toast |
| AuthContext.BootstrapAfterMount | frontend/src/contexts/AuthContext.tsx:30-42 | after mount, a user is set exactly when a truthy token was stored and `/me` succeeded; with no token nothing is sent |
| AuthContext.LoginErrorText | frontend/src/contexts/AuthContext.tsx:66-74 | toast text precedence: a non-empty server `detail`, then "Network Error", then `ERR_NETWORK`, then the generic text; the toast is never blank |
| AuthContext.SignupErrorText | frontend/src/contexts/AuthContext.tsx:90 | a non-empty server `detail`, else "Signup failed. Please try again."; never blank |
| AuthContext.Login | frontend/src/contexts/AuthContext.tsx:48-79 | resolves exactly when both calls succeed, then the user is set, cached as JSON under `user`, and one success toast is added; otherwise the user is unchanged, one error toast is added and the failing call's error is rethrown; `/me` is not called after a failed login; storage after every branch: a failed first call leaves it alone unless it was a 401 (then both keys are purged and the page redirects); a successful first call stores a truthy token, which a non-401 `/me` failure keeps and a 401 `/me` failure purges; earlier requests are kept, the first new one is the login POST with the two fields, and after a successful first call the second is the `/me` GET |
| AuthContext.WrongPasswordPurgesStorage | frontend/src/contexts/AuthContext.tsx:58-78 | a wrong password removes both stored keys and redirects through the shared interceptor, though `login` itself never touches storage on failure |
| AuthContext.MeCarriesNewToken | frontend/src/contexts/AuthContext.tsx:50-53 | the `/me` call after a login carries the token that login just stored |
| AuthContext.Signup | frontend/src/contexts/AuthContext.tsx:81-94 | if creation fails, login is never called, one signup error toast is added, storage is left alone unless the failure was a 401 (then both keys are purged and the page redirects), and the error is rethrown; otherwise login is called with the same credentials; success adds the login toast then "Account created successfully!"; a nested failure adds the login error toast then the signup one |
| AuthContext.SignupIsLoginPlusNotice | frontend/src/contexts/AuthContext.tsx:83-88 | once the account is created, signup settles as a direct login would and leaves the same user, storage, requests and redirect; it adds one more toast, the account notice on success or the signup error text on failure |
| AuthContext.Logout | frontend/src/contexts/AuthContext.tsx:96-108 | the user is always cleared; storage ends as the session store with both keys removed, every other entry kept; one POST to the logout path is appended, earlier requests kept; the redirect is set exactly on a 401; a success toast only when the request succeeds |
| AuthContext.LoadingOnlyClearedByBootstrap | frontend/src/contexts/AuthContext.tsx:26-42 | no sequence of login, signup and logout writes `loading` |
| AuthContext.LogoutEndsSession | frontend/src/contexts/AuthContext.tsx:96-107 | after any history ending in logout, nobody is authenticated and no session key is stored |
| LoginForm.TestEmail | frontend/src/components/Login.tsx:29 | a single pass decides `\S+@\S+\.\S+` exactly as the existential definition of an unanchored match |
| LoginForm.Utf16Length | frontend/src/components/Login.tsx:37 | `length` counts UTF-16 units: between one and two per character |
| LoginForm.ValidateForm | frontend/src/components/Login.tsx:22-44 | empty fields, a non-matching email and a 1-5 unit password get their messages; a field's message is empty exactly when it is acceptable; the form is valid exactly when both messages are empty |
| LoginForm.FieldsIndependent | frontend/src/components/Login.tsx:23-43 | each field's message depends on that field alone |
| LoginForm.HandleSubmit | frontend/src/components/Login.tsx:46-60 | an invalid form sends nothing and changes no session; a valid one leaves exactly the session `login` with the form's fields leaves (its toasts, storage and user), clears `isLoading`, and navigates to `/home` exactly when login resolves |
| LoginForm.EmailExamples | frontend/src/components/Login.tsx:29 | "a@b.c" matches, "a@.c" does not, and a match may sit inside surrounding text |
| Theme.Persisted | src/contexts/ThemeContext.tsx:29 | the flag is written as "true" or "false", "true" exactly for dark |
| Theme.ParseSaved | src/contexts/ThemeContext.tsx:14-16 | a saved value is read back exactly when it is one the provider writes, and it reads back as the flag that produced it |
| Theme.InitialDarkMode | src/contexts/ThemeContext.tsx:12-20 | a saved value wins; with none saved, the system preference decides |
| Theme.ApplyEffect | src/contexts/ThemeContext.tsx:22-42 | afterwards storage `darkMode` equals the flag and `dark` is on the root exactly when the flag is set; other keys and classes are untouched |
| Theme.Mount | src/contexts/ThemeContext.tsx:12-42 | mounting settles storage and the root class on the initial flag |
| Theme.ToggleDarkMode | src/contexts/ThemeContext.tsx:44-46 | the flag is negated and storage and class follow |
| Theme.SetTheme | src/contexts/ThemeContext.tsx:48-50 | the flag becomes "is the name `dark`" and storage and class follow |
| Theme.EffectIdleWhenSynced | src/contexts/ThemeContext.tsx:22-42 | on a settled state the effect changes nothing |
| Theme.ToggleTwice | src/contexts/ThemeContext.tsx:44-46 | toggling twice returns the settled state unchanged |
| Theme.SetThemeIdempotent | src/contexts/ThemeContext.tsx:48-50 | setting the same theme twice equals setting it once |
| Theme.ReloadRestores | src/contexts/ThemeContext.tsx:12-29 | re-mounting from the persisted storage restores the last flag whatever the system preference |
| Meeting.ParticipantsButton | frontend/src/components/Translator.tsx:314-317 | toggles the participants list and closes the chat; properties in `Meeting.ButtonsToggleBack` and `Meeting.ClickIsExclusive` |
| Meeting.ChatButton | frontend/src/components/Translator.tsx:329-332 | toggles the chat and closes the participants list; properties in `Meeting.ButtonsToggleBack` and `Meeting.ClickIsExclusive` |
| Meeting.ParticipantsTab | frontend/src/components/Translator.tsx:363-366 | opens the participants list and closes the chat; properties in `Meeting.TabsIdempotent` |
| Meeting.ChatTab | frontend/src/components/Translator.tsx:375-378 | opens the chat and closes the participants list; properties in `Meeting.TabsIdempotent` |
| Meeting.ClickIsExclusive | frontend/src/components/Translator.tsx:314-378 | every button or tab click leaves at most one panel open, and the clicked panel's counterpart is closed |
| Meeting.ButtonsToggleBack | frontend/src/components/Translator.tsx:314-332 | each header button flips its own flag; pressed twice with the other panel closed it restores the state |
| Meeting.TabsIdempotent | frontend/src/components/Translator.tsx:363-378 | a tab opens its own panel and a second click changes nothing |
| Meeting.NeverBoth | frontend/src/components/Translator.tsx:28-29 | from a state with at most one panel open (such as the initial one), no sequence of clicks opens both |
| Meeting.SidePanel | frontend/src/components/Translator.tsx:355-357 | the panel is rendered exactly when chat or participants is open; the tab it mounts on (`defaultValue`) is chat exactly when the chat flag is set |
| Meeting.ScreenPress | frontend/src/components/Translator.tsx:314-378 | a click moves the flags as the handlers do; a tab click selects its tab; a header click that mounts the panel selects the default tab; a header click that switches panels while the panel stays mounted keeps the selected tab; closing both flags unmounts it |
| Meeting.ScreenStaysWellFormed | frontend/src/components/Translator.tsx:28-29 | from any well-formed screen, such as the initial one, every click sequence keeps the flags exclusive and the panel mounted exactly while a flag is set |
| Meeting.HeaderSwitchKeepsTab | frontend/src/components/Translator.tsx:329-357 | opening the participants list and then pressing the chat button shows the chat flag set while the panel still displays the participants tab |
| Meeting.TabAgreesAfterMountOrTabClick | frontend/src/components/Translator.tsx:355-378 | right after the panel mounts, or after a tab click, the displayed tab matches the open flag |
| Meeting.Presenter | frontend/src/components/Translator.tsx:70 | the presenter is the first participant marked presenting; there is none exactly when nobody presents |
| Meeting.NonPresenters | frontend/src/components/Translator.tsx:145 | the filter's result has no presenter and is no longer than the roster; full characterisation in `Meeting.NonPresentersInOrder` |
| Meeting.NonPresentersInOrder | frontend/src/components/Translator.tsx:145 | the filter keeps every non-presenter as many times as it occurs, drops every presenter, and keeps roster order |
| Meeting.Strip | frontend/src/components/Translator.tsx:145 | at most three tiles, a prefix of the non-presenters, all of them when there are three or fewer |
| Meeting.MoreCount | frontend/src/components/Translator.tsx:187-195 | the "+N more" card appears exactly when more than three non-presenters exist, with N positive |
| Meeting.StripAndMoreCoverAll | frontend/src/components/Translator.tsx:145-195 | strip tiles plus N count every non-presenter exactly once |
| Meeting.RosterLayout | frontend/src/components/Translator.tsx:63-70 | with the fixed roster, "You" presents, the three others fill the strip, and there is no "+N more" card |

## Left out

- Network, database, bcrypt and JWT internals: they are parameters. `verify`, `bcrypt` and `sign` are arbitrary functions, and `decoded` is the payload `jwt.decode` returned. Expiry and signature checks live inside that parameter.
- The `HTTPBearer` dependency that extracts the token from the `Authorization` header: FastAPI's behaviour for a missing or malformed header is library code. The model starts from the decoded payload.
- backend/app/schemas/user.py is not part of this model. Email normalisation by `EmailStr`, the `TokenData` and `UserResponse` shapes, and the 422 validation errors (whose `detail` is a list) are not modelled. `detail` is an optional string.
- The `WWW-Authenticate` header on the login 401, the cookie's `expires` field (equal to `max_age`), and the CORS and connection setup in backend/app/main.py and backend/app/database.py.
- Python strings with lone surrogates: `encode("utf-8")` raises on them, giving a 500. Dafny characters are Unicode scalar values, so these strings do not arise.
- A stored `is_active` of `null`: the model only knows a missing field or a boolean.
- Time is whole seconds. `timedelta` microseconds are not modelled.
- `JSON.parse` of a saved theme value other than `true`/`false`: `Theme.InitialDarkMode` returns `None` for it.
- The 100 ms transition-class timer: `Theme.ApplyEffect` describes the state after it has fired.
- Keyboard activation of the side panel's tabs: `Meeting.ScreenPress` only models clicks. The `Tabs` component (./ui/tabs) is not part of this model, so a tab selected without its `onClick` running is not covered.
- Camera capture, clipboard, timers, mute and video toggles, the chat and participant lists' rendering, and the static screens (Home, Personal, Profile, Sidebar, Underworks, App routing).
- The translator endpoint and schema: a random placeholder with float fields.
- Overlapping `login` calls and other asynchronous interleavings: each operation runs to completion.
- `JSON.stringify` of the cached user: `AuthContext.Stringify` writes the five fields of the client's `User` interface in declaration order. `id` is text: the interface declares a number, but the server renders the ObjectId as hex text (see `UserModel.ValidateObjectId`), and that text is what gets cached.
- `AuthUtils.TokenRoundTrip`: stated under a verification that always returns the signed payload, so it says nothing about expired tokens; expiry is inside the `decoded` parameter of `AuthUtils.DecodeAccessToken`.
- `console.error` logging.

=== FILE: api_client.dfy ===
/** The shared HTTP client (frontend/src/services/api.ts): the request
    interceptor that attaches the stored token, the response interceptor that
    purges the session on 401, and the `authAPI` storage effects. The network
    is not modelled: every call takes its outcome as a parameter. */
module ApiClient {
  import opened Wrappers
  import opened LocalStorage

  type Headers = map<string, string>

  /** The part of an axios error's `response` the client reads. */
  datatype ErrorResponse = ErrorResponse(status: int, detail: Option<string>)

  /** An axios error: the server's response when there was one, `message`
      and `code` (for instance "Network Error" and "ERR_NETWORK"). */
  datatype HttpError = HttpError(response: Option<ErrorResponse>, message: string, code: string)

  /** What the transport delivers for one request. */
  datatype Outcome<T> = Ok(data: T) | Err(error: HttpError)

  /** A request as it leaves the interceptor; `body` holds the JSON fields. */
  datatype Request = Request(verb: string, path: string, headers: Headers, body: map<string, string>)

  /** Client-side state the transport touches: storage, the requests sent
      so far, and whether `window.location` was sent to `/login`. */
  datatype Client = Client(store: Store, sent: seq<Request>, redirectedToLogin: bool)

  /** The result of one call as its caller sees it. */
  datatype Call<T> = Call(client: Client, outcome: Outcome<T>)

  const Authorization := "Authorization"
  const DefaultHeaders: Headers := map["Content-Type" := "application/json"]

  const SignupPath := "/api/auth/signup"
  const LoginPath := "/api/auth/login"
  const LogoutPath := "/api/auth/logout"
  const MePath := "/api/auth/me"

  /** The request interceptor: `Bearer <token>` is attached exactly when a
      truthy token is stored; nothing else in the headers changes. */
  function AttachToken(store: Store, headers: Headers): (h: Headers)
    ensures Truthy(GetItem(store, AccessTokenKey)) ==> Authorization in h && h[Authorization] == "Bearer " + store[AccessTokenKey]
    ensures !Truthy(GetItem(store, AccessTokenKey)) ==> h == headers
    ensures h.Keys == headers.Keys || h.Keys == headers.Keys + {Authorization}
    ensures forall k :: k in headers && k != Authorization ==> k in h && h[k] == headers[k]
  {
    var token := GetItem(store, AccessTokenKey);
    if Truthy(token) then headers[Authorization := "Bearer " + token.value] else headers
  }

  predicate IsUnauthorized<T>(o: Outcome<T>) {
    o.Err? && o.error.response.Some? && o.error.response.value.status == 401
  }

  /** The response interceptor: a 401 clears both session keys and sends the
      browser to `/login`; any other outcome leaves the client as it was. */
  function AfterResponse<T>(c: Client, o: Outcome<T>): (c': Client)
    ensures IsUnauthorized(o) ==> c'.store == ClearSession(c.store) && c'.redirectedToLogin
    ensures !IsUnauthorized(o) ==> c' == c
    ensures c'.sent == c.sent
  {
    if IsUnauthorized(o) then c.(store := ClearSession(c.store), redirectedToLogin := true) else c
  }

  /** One request through both interceptors. The outcome reaches the caller
      unchanged: a success passes through and every error is still rejected. */
  function Send<T>(c: Client, verb: string, path: string, body: map<string, string>, o: Outcome<T>): (r: Call<T>)
    ensures r.outcome == o
    ensures r.client.sent == c.sent + [Request(verb, path, AttachToken(c.store, DefaultHeaders), body)]
    ensures IsUnauthorized(o) ==> r.client.store == ClearSession(c.store) && r.client.redirectedToLogin
    ensures !IsUnauthorized(o) ==> r.client.store == c.store && r.client.redirectedToLogin == c.redirectedToLogin
  {
    var sent := c.(sent := c.sent + [Request(verb, path, AttachToken(c.store, DefaultHeaders), body)]);
    Call(AfterResponse(sent, o), o)
  }

  /** A 401 purge leaves nothing for a second one to remove. */
  lemma PurgeIdempotent<T>(c: Client, o: Outcome<T>)
    requires IsUnauthorized(o)
    ensures AfterResponse(AfterResponse(c, o), o) == AfterResponse(c, o)
  {
    ClearSessionIdempotent(c.store);
  }

  /** The body of a login response. */
  datatype LoginData = LoginData(accessToken: Option<string>)

  /** `authAPI.signup`: posts the three fields and touches storage only
      through the 401 purge. */
  function SignupCall<T>(c: Client, email: string, username: string, password: string, o: Outcome<T>): (r: Call<T>)
    ensures r.outcome == o
    ensures |r.client.sent| == |c.sent| + 1 && r.client.sent[|c.sent|].path == SignupPath
    ensures r.client.sent[..|c.sent|] == c.sent && r.client.sent[|c.sent|].verb == "POST"
    ensures r.client.sent[|c.sent|].body == map["email" := email, "username" := username, "password" := password]
    ensures r.client.store == if IsUnauthorized(o) then ClearSession(c.store) else c.store
    ensures r.client.redirectedToLogin <==> c.redirectedToLogin || IsUnauthorized(o)
  {
    Send(c, "POST", SignupPath, map["email" := email, "username" := username, "password" := password], o)
  }

  /** `authAPI.login`: stores the token only when the response carries a
      truthy `access_token`. */
  function LoginCall(c: Client, email: string, password: string, o: Outcome<LoginData>): (r: Call<LoginData>)
    ensures r.outcome == o
    ensures |r.client.sent| == |c.sent| + 1 && r.client.sent[|c.sent|].path == LoginPath
    ensures r.client.sent[..|c.sent|] == c.sent && r.client.sent[|c.sent|].verb == "POST"
    ensures r.client.sent[|c.sent|].body == map["email" := email, "password" := password]
    ensures o.Ok? && Truthy(o.data.accessToken) ==> r.client.store == c.store[AccessTokenKey := o.data.accessToken.value]
    ensures o.Ok? && !Truthy(o.data.accessToken) ==> r.client.store == c.store
    ensures o.Err? && !IsUnauthorized(o) ==> r.client.store == c.store
    ensures IsUnauthorized(o) ==> r.client.store == ClearSession(c.store)
    ensures r.client.redirectedToLogin <==> c.redirectedToLogin || IsUnauthorized(o)
  {
    var call := Send(c, "POST", LoginPath, map["email" := email, "password" := password], o);
    if o.Ok? && Truthy(o.data.accessToken)
    then call.(client := call.client.(store := call.client.store[AccessTokenKey := o.data.accessToken.value]))
    else call
  }

  /** `authAPI.logout`: clears both keys only once the request succeeds; a
      failed request leaves them (apart from the 401 purge) to the caller. */
  function LogoutCall<T>(c: Client, o: Outcome<T>): (r: Call<T>)
    ensures r.outcome == o
    ensures |r.client.sent| == |c.sent| + 1 && r.client.sent[|c.sent|].path == LogoutPath
    ensures r.client.sent[..|c.sent|] == c.sent && r.client.sent[|c.sent|].verb == "POST"
    ensures r.client.redirectedToLogin <==> c.redirectedToLogin || IsUnauthorized(o)
    ensures o.Ok? ==> r.client.store == ClearSession(c.store)
    ensures o.Err? && !IsUnauthorized(o) ==> r.client.store == c.store
    ensures IsUnauthorized(o) ==> r.client.store == ClearSession(c.store)
  {
    var call := Send(c, "POST", LogoutPath, map[], o);
    if o.Ok? then call.(client := call.client.(store := ClearSession(call.client.store))) else call
  }

  /** `authAPI.getCurrentUser`: a GET carrying the stored token, touching
      storage only through the 401 purge. */
  function MeCall<T>(c: Client, o: Outcome<T>): (r: Call<T>)
    ensures r.outcome == o
    ensures |r.client.sent| == |c.sent| + 1 && r.client.sent[|c.sent|].path == MePath
    ensures r.client.sent[..|c.sent|] == c.sent
    ensures r.client.sent[|c.sent|].verb == "GET" && r.client.sent[|c.sent|].headers == AttachToken(c.store, DefaultHeaders)
    ensures r.client.store == if IsUnauthorized(o) then ClearSession(c.store) else c.store
    ensures r.client.redirectedToLogin <==> c.redirectedToLogin || IsUnauthorized(o)
  {
    Send(c, "GET", MePath, map[], o)
  }
}

=== FILE: auth_context.dfy ===
/** The client session (frontend/src/contexts/AuthContext.tsx): the signed-in
    user, the bootstrap `loading` flag, the transport state and the toasts
    shown so far. Each operation runs to completion; the outcome of every
    remote call is a parameter, and the 401 purge of the shared client is
    part of every call. */
module AuthContext {
  import opened Wrappers
  import opened LocalStorage
  import opened ApiClient
  import Json

  /** The profile `/api/auth/me` returns; `id` is the hex text of the
      document's ObjectId. */
  datatype User = User(id: string, email: string, username: string, isActive: bool, createdAt: string)

  datatype Toast = SuccessToast(text: string) | ErrorToast(text: string)

  datatype Session = Session(user: Option<User>, loading: bool, client: Client, toasts: seq<Toast>)

  /** How an operation settles for its caller: resolved, or rejected with the
      transport's error. */
  datatype Settled = Resolved | Rejected(error: HttpError)

  datatype Step = Step(session: Session, settled: Settled)

  const LoginOk := "Login successful!"
  const LoginFailed := "Login failed. Please check your credentials."
  const CannotConnect := "Cannot connect to server. Please make sure the backend is running."
  const BackendHint := "Network error. Check if backend is running on http://localhost:8000"
  const AccountCreated := "Account created successfully!"
  const SignupFailed := "Signup failed. Please try again."
  const LoggedOut := "Logged out successfully"

  /** `JSON.stringify(userData)`, the copy cached under `user`. */
  function Stringify(u: User): string {
    "{\"id\":" + Json.Quote(u.id)
    + ",\"email\":" + Json.Quote(u.email)
    + ",\"username\":" + Json.Quote(u.username)
    + ",\"is_active\":" + Json.BoolText(u.isActive)
    + ",\"created_at\":" + Json.Quote(u.createdAt) + "}"
  }

  /** The value the provider exposes to the application. */
  datatype ContextValue = ContextValue(user: Option<User>, loading: bool, isAuthenticated: bool)

  /** `isAuthenticated` is derived, never stored: it is exactly "a user is set". */
  function Provided(s: Session): (v: ContextValue)
    ensures v.isAuthenticated <==> s.user.Some?
    ensures v.user == s.user && v.loading == s.loading
  {
    ContextValue(s.user, s.loading, s.user.Some?)
  }

  /** The provider's first render: no user, `loading` true, nothing sent. */
  function Mount(store: Store): (s: Session)
    ensures s.user.None? && s.loading && s.toasts == []
    ensures s.client.store == store && s.client.sent == [] && !s.client.redirectedToLogin
  {
    Session(None, true, Client(store, [], false), [])
  }

  /** `checkAuth`: with a truthy stored token, ask `/me`; on success set the
      user, on failure remove both keys. `loading` ends false either way and
      nothing is shown to the user. */
  function Bootstrap(s: Session, me: Outcome<User>): (s': Session)
    ensures !s'.loading && s'.toasts == s.toasts
    ensures !Truthy(GetItem(s.client.store, AccessTokenKey)) ==> s'.user == s.user && s'.client == s.client
    ensures Truthy(GetItem(s.client.store, AccessTokenKey)) ==>
              |s'.client.sent| == |s.client.sent| + 1 && s'.client.sent[|s.client.sent|].path == MePath
    ensures Truthy(GetItem(s.client.store, AccessTokenKey)) && me.Ok? ==>
              s'.user == Some(me.data) && s'.client.store == s.client.store
    ensures Truthy(GetItem(s.client.store, AccessTokenKey)) && me.Err? ==>
              s'.user == s.user && s'.client.store == ClearSession(s.client.store)
    ensures Truthy(GetItem(s.client.store, AccessTokenKey)) ==>
              (s'.client.redirectedToLogin <==> s.client.redirectedToLogin || IsUnauthorized(me))
  {
    if !Truthy(GetItem(s.client.store, AccessTokenKey)) then s.(loading := false)
    else
      var call := MeCall(s.client, me);
      match me
      case Ok(u) => s.(user := Some(u), loading := false, client := call.client)
      case Err(_) =>
        ClearSessionIdempotent(s.client.store);
        s.(loading := false, client := call.client.(store := ClearSession(call.client.store)))
  }

  /** Bootstrap right after mounting: no stored token means no request and
      no user; a rejected token leaves no session keys and no user. */
  lemma BootstrapAfterMount(store: Store, me: Outcome<User>)
    ensures var s := Bootstrap(Mount(store), me);
            && !s.loading && s.toasts == []
            && (!Truthy(GetItem(store, AccessTokenKey)) ==> s.user.None? && s.client.sent == [])
            && (Truthy(GetItem(store, AccessTokenKey)) && me.Err? ==> s.user.None? && AccessTokenKey !in s.client.store && UserKey !in s.client.store)
            && (s.user.Some? <==> Truthy(GetItem(store, AccessTokenKey)) && me.Ok?)
  {
  }

  /** The login toast: the server's `detail` when truthy, then the two
      network messages, then the generic text. */
  function LoginErrorText(e: HttpError): (t: string)
    ensures e.response.Some? && Truthy(e.response.value.detail) ==> t == e.response.value.detail.value
    ensures !(e.response.Some? && Truthy(e.response.value.detail)) && e.message == "Network Error" ==> t == CannotConnect
    ensures !(e.response.Some? && Truthy(e.response.value.detail)) && e.message != "Network Error" && e.code == "ERR_NETWORK"
            ==> t == BackendHint
    ensures !(e.response.Some? && Truthy(e.response.value.detail)) && e.message != "Network Error" && e.code != "ERR_NETWORK"
            ==> t == LoginFailed
    ensures t != ""
  {
    if e.response.Some? && Truthy(e.response.value.detail) then e.response.value.detail.value
    else if e.message == "Network Error" then CannotConnect
    else if e.code == "ERR_NETWORK" then BackendHint
    else LoginFailed
  }

  /** The signup toast: the server's `detail` when truthy, else the generic text. */
  function SignupErrorText(e: HttpError): (t: string)
    ensures e.response.Some? && Truthy(e.response.value.detail) ==> t == e.response.value.detail.value
    ensures !(e.response.Some? && Truthy(e.response.value.detail)) ==> t == SignupFailed
    ensures t != ""
  {
    if e.response.Some? && Truthy(e.response.value.detail) then e.response.value.detail.value else SignupFailed
  }

  /** `login`: the login call (which stores a truthy token), then `/me`; the
      user is set, cached and greeted only when both succeed. A failure shows
      one error toast, leaves the user as it was and is rethrown. */
  function Login(s: Session, email: string, password: string, loginOutcome: Outcome<LoginData>, me: Outcome<User>): (r: Step)
    ensures r.settled.Resolved? <==> loginOutcome.Ok? && me.Ok?
    ensures r.session.loading == s.loading
    ensures r.settled.Resolved? ==>
              && r.session.user == Some(me.data)
              && UserKey in r.session.client.store && r.session.client.store[UserKey] == Stringify(me.data)
              && r.session.toasts == s.toasts + [SuccessToast(LoginOk)]
    ensures loginOutcome.Ok? ==>
              var token := loginOutcome.data.accessToken;
              var stored := if Truthy(token) then s.client.store[AccessTokenKey := token.value] else s.client.store;
              && (me.Ok? ==> r.session.client.store == stored[UserKey := Stringify(me.data)])
              && (me.Err? ==> r.session.client.store == if IsUnauthorized(me) then ClearSession(stored) else stored)
              && (r.session.client.redirectedToLogin <==> s.client.redirectedToLogin || IsUnauthorized(me))
    ensures loginOutcome.Err? ==>
              && r.session.client.store == (if IsUnauthorized(loginOutcome) then ClearSession(s.client.store) else s.client.store)
              && (r.session.client.redirectedToLogin <==> s.client.redirectedToLogin || IsUnauthorized(loginOutcome))
    ensures r.settled.Rejected? ==>
              && r.session.user == s.user
              && r.settled.error == (if loginOutcome.Err? then loginOutcome.error else me.error)
              && r.session.toasts == s.toasts + [ErrorToast(LoginErrorText(r.settled.error))]
    ensures |r.session.client.sent| > |s.client.sent|
    ensures r.session.client.sent[..|s.client.sent|] == s.client.sent
    ensures r.session.client.sent[|s.client.sent|] == Request("POST", LoginPath, AttachToken(s.client.store, DefaultHeaders), map["email" := email, "password" := password])
    ensures loginOutcome.Err? ==> |r.session.client.sent| == |s.client.sent| + 1
    ensures loginOutcome.Ok? ==> |r.session.client.sent| == |s.client.sent| + 2
                                 && r.session.client.sent[|s.client.sent| + 1].path == MePath
                                 && r.session.client.sent[|s.client.sent| + 1].verb == "GET"
  {
    var afterLogin := LoginCall(s.client, email, password, loginOutcome);
    match loginOutcome
    case Err(e) =>
      Step(s.(client := afterLogin.client, toasts := s.toasts + [ErrorToast(LoginErrorText(e))]), Rejected(e))
    case Ok(_) =>
      var afterMe := MeCall(afterLogin.client, me);
      match me
      case Err(e) =>
        Step(s.(client := afterMe.client, toasts := s.toasts + [ErrorToast(LoginErrorText(e))]), Rejected(e))
      case Ok(u) =>
        var client := afterMe.client.(store := afterMe.client.store[UserKey := Stringify(u)]);
        Step(s.(user := Some(u), client := client, toasts := s.toasts + [SuccessToast(LoginOk)]), Resolved)
  }

  /** A wrong password comes back as 401, so the shared client purges the
      stored session and redirects, although `login` itself never touches
      storage on failure; the in-memory user is left alone. */
  lemma WrongPasswordPurgesStorage(s: Session, email: string, password: string, e: HttpError, me: Outcome<User>)
    requires e.response == Some(ErrorResponse(401, Some("Incorrect email or password")))
    ensures var r := Login(s, email, password, Err(e), me);
            && r.settled == Rejected(e)
            && AccessTokenKey !in r.session.client.store && UserKey !in r.session.client.store
            && r.session.client.redirectedToLogin
            && r.session.user == s.user
            && r.session.toasts == s.toasts + [ErrorToast("Incorrect email or password")]
  {
  }

  /** The `/me` request that follows a login carries the token that login
      just stored. */
  lemma MeCarriesNewToken(s: Session, email: string, password: string, token: string, me: Outcome<User>)
    requires token != ""
    ensures var sent := Login(s, email, password, Ok(LoginData(Some(token))), me).session.client.sent;
            |sent| == |s.client.sent| + 2 && sent[|s.client.sent| + 1].path == MePath
            && sent[|s.client.sent| + 1].headers[Authorization] == "Bearer " + token
  {
  }

  /** `signup`: create the account, then log in with the same credentials,
      then add the account notice. If creation fails, login is never tried. */
  function Signup<D>(s: Session, email: string, username: string, password: string, created: Outcome<D>, loginOutcome: Outcome<LoginData>, me: Outcome<User>): (r: Step)
    ensures r.settled.Resolved? <==> created.Ok? && loginOutcome.Ok? && me.Ok?
    ensures r.session.loading == s.loading
    ensures created.Err? ==>
              && r.session.client.store == (if IsUnauthorized(created) then ClearSession(s.client.store) else s.client.store)
              && (r.session.client.redirectedToLogin <==> s.client.redirectedToLogin || IsUnauthorized(created))
              && r.settled == Rejected(created.error)
              && r.session.user == s.user
              && |r.session.client.sent| == |s.client.sent| + 1
              && r.session.toasts == s.toasts + [ErrorToast(SignupErrorText(created.error))]
    ensures created.Ok? ==>
              && |r.session.client.sent| >= |s.client.sent| + 2
              && r.session.client.sent[|s.client.sent|].body == map["email" := email, "username" := username, "password" := password]
              && r.session.client.sent[|s.client.sent| + 1].body == map["email" := email, "password" := password]
    ensures created.Ok? && r.settled.Resolved? ==>
              && r.session.user == Some(me.data)
              && r.session.toasts == s.toasts + [SuccessToast(LoginOk), SuccessToast(AccountCreated)]
    ensures created.Ok? && r.settled.Rejected? ==>
              && r.session.user == s.user
              && r.session.toasts == s.toasts + [ErrorToast(LoginErrorText(r.settled.error)),
                                                 ErrorToast(SignupErrorText(r.settled.error))]
  {
    var afterCreate := SignupCall(s.client, email, username, password, created);
    match created
    case Err(e) =>
      Step(s.(client := afterCreate.client, toasts := s.toasts + [ErrorToast(SignupErrorText(e))]), Rejected(e))
    case Ok(_) =>
      var nested := Login(s.(client := afterCreate.client), email, password, loginOutcome, me);
      match nested.settled
      case Resolved =>
        Step(nested.session.(toasts := nested.session.toasts + [SuccessToast(AccountCreated)]), Resolved)
      case Rejected(e) =>
        Step(nested.session.(toasts := nested.session.toasts + [ErrorToast(SignupErrorText(e))]), Rejected(e))
  }

  /** Once the account exists, a signup leaves the session a direct login
      would have left after the signup request: same user, storage, requests
      and redirect, and the same settlement. Only one toast is added on top:
      the account notice on success, the signup's error text on failure. */
  lemma SignupIsLoginPlusNotice<D>(s: Session, email: string, username: string, password: string, d: D, loginOutcome: Outcome<LoginData>, me: Outcome<User>)
    ensures var via := Signup(s, email, username, password, Ok(d), loginOutcome, me);
            var direct := Login(s.(client := SignupCall(s.client, email, username, password, Ok(d)).client), email, password, loginOutcome, me);
            && via.settled == direct.settled
            && via.session.user == direct.session.user && via.session.client == direct.session.client
            && via.session.loading == direct.session.loading
            && (direct.settled.Resolved? ==> via.session.toasts == direct.session.toasts + [SuccessToast(AccountCreated)])
            && (direct.settled.Rejected? ==>
                  via.session.toasts == direct.session.toasts + [ErrorToast(SignupErrorText(direct.settled.error))])
  {
  }

  /** `logout`: the user is always cleared and both keys are always gone
      (by `authAPI.logout` on success, by the catch branch on failure); only
      a successful request is announced. */
  function Logout<D>(s: Session, o: Outcome<D>): (s': Session)
    ensures s'.user.None? && s'.loading == s.loading
    ensures AccessTokenKey !in s'.client.store && UserKey !in s'.client.store
    ensures forall k :: k != AccessTokenKey && k != UserKey ==> (k in s'.client.store <==> k in s.client.store)
    ensures s'.client.store == ClearSession(s.client.store)
    ensures s'.client.redirectedToLogin <==> s.client.redirectedToLogin || IsUnauthorized(o)
    ensures |s'.client.sent| == |s.client.sent| + 1 && s'.client.sent[|s.client.sent|].path == LogoutPath
    ensures s'.client.sent[..|s.client.sent|] == s.client.sent && s'.client.sent[|s.client.sent|].verb == "POST"
    ensures o.Ok? ==> s'.toasts == s.toasts + [SuccessToast(LoggedOut)]
    ensures o.Err? ==> s'.toasts == s.toasts
  {
    var call := LogoutCall(s.client, o);
    match o
    case Ok(_) => s.(user := None, client := call.client, toasts := s.toasts + [SuccessToast(LoggedOut)])
    case Err(_) =>
      ClearSessionIdempotent(s.client.store);
      s.(user := None, client := call.client.(store := ClearSession(call.client.store)))
  }

  /** A user action on a mounted provider, with the outcomes its calls meet. */
  datatype Action =
    | LoginAction(email: string, password: string, loginOutcome: Outcome<LoginData>, me: Outcome<User>)
    | SignupAction(newEmail: string, username: string, newPassword: string,
                   created: Outcome<()>, signupLogin: Outcome<LoginData>, signupMe: Outcome<User>)
    | LogoutAction(logout: Outcome<()>)

  function Apply(s: Session, a: Action): Session {
    match a
    case LoginAction(e, p, lo, me) => Login(s, e, p, lo, me).session
    case SignupAction(e, u, p, c, lo, me) => Signup(s, e, u, p, c, lo, me).session
    case LogoutAction(o) => Logout(s, o)
  }

  function Run(s: Session, actions: seq<Action>): Session
    decreases |actions|
  {
    if actions == [] then s else Run(Apply(s, actions[0]), actions[1..])
  }

  /** No action writes `loading`: once bootstrap has cleared it, it stays
      false, and before bootstrap it stays true. */
  lemma {:induction false} LoadingOnlyClearedByBootstrap(s: Session, actions: seq<Action>)
    ensures Run(s, actions).loading == s.loading
    decreases |actions|
  {
    if actions != [] {
      LoadingOnlyClearedByBootstrap(Apply(s, actions[0]), actions[1..]);
    }
  }

  /** After a logout, whatever came before, nobody is signed in and no
      session key is stored. */
  lemma {:induction false} LogoutEndsSession(s: Session, actions: seq<Action>, o: Outcome<()>)
    ensures var t := Run(s, actions + [LogoutAction(o)]);
            t.user.None? && !Provided(t).isAuthenticated && AccessTokenKey !in t.client.store && UserKey !in t.client.store
    decreases |actions|
  {
    if actions == [] {
      assert actions + [LogoutAction(o)] == [LogoutAction(o)];
    } else {
      assert (actions + [LogoutAction(o)])[1..] == actions[1..] + [LogoutAction(o)];
      LogoutEndsSession(Apply(s, actions[0]), actions[1..], o);
    }
  }
}

=== FILE: auth_router.dfy ===
/** The `/api/auth` endpoints (backend/app/routers/auth.py): signup, login,
    logout and `/me`. The clock, the id MongoDB assigns, bcrypt and the JWT
    signature are parameters. */
module AuthRouter {
  import opened Wrappers
  import Utf8
  import opened UserModel
  import opened UserStore
  import opened AuthUtils

  const EmailTaken := "Email already registered"
  const UsernameTaken := "Username already taken"
  const IncorrectLogin := "Incorrect email or password"
  const InactiveUser := "Inactive user"
  const CookieName := "access_token"

  datatype SignupRequest = SignupRequest(email: string, username: string, password: string)
  datatype LoginRequest = LoginRequest(email: string, password: string)

  /** The store after a successful signup, the document inserted and the
      `User` returned (status 201). */
  datatype SignupOutcome = SignupOutcome(store: Store, inserted: Document, user: User)

  /** `signup`. `found` is the answer of the `$or` lookup on email and
      username; `newId` is the id `insert_one` assigns; `now` is the clock. */
  function Signup(store: Store, req: SignupRequest, found: Option<Document>,
                  bcrypt: string -> string, newId: ObjectId, now: int): (r: Result<SignupOutcome, HttpException>)
    requires FindOne(store, ByEmailOrUsername(req.email, req.username), found)
    ensures found.Some? ==> r.Failure? && r.error.status == 400
    ensures found.Some? ==> (r.error.detail == EmailTaken <==> found.value.email == req.email)
    ensures found.Some? ==> r.error.detail == EmailTaken || r.error.detail == UsernameTaken
    ensures found.None? ==> (r.Success? <==> |Utf8.Encode(req.password)| <= BcryptMaxBytes)
    ensures found.None? && r.Failure? ==> r.error == HttpException(400, TooLong)
    ensures r.Success? ==> r.value.store == store + {r.value.inserted} && r.value.inserted !in store
    ensures r.Success? ==> var d := r.value.inserted;
              && d.email == req.email && d.username == req.username
              && d.hashedPassword == bcrypt(req.password)
              && d.isActive == Some(true) && d.updatedAt.None? && d.createdAt == Some(now)
              && d.id == Oid(newId)
    ensures r.Success? ==> var u := r.value.user;
              && u.id.Some? && Unhex(u.id.value) == Some(newId.raw)
              && u.email == req.email && u.username == req.username
              && u.isActive && u.updatedAt.None? && u.createdAt == now
  {
    if found.Some? then
      if found.value.email == req.email then Failure(HttpException(400, EmailTaken))
      else Failure(HttpException(400, UsernameTaken))
    else
      match GetPasswordHash(Chars(req.password), bcrypt)
      case Failure(e) => Failure(e)
      case Success(hashed) =>
        Utf8.DecodeEncode(req.password);
        var d := Document(Oid(newId), req.email, req.username, hashed, Some(true), Some(now), None);
        assert Matches(d, ByEmailOrUsername(req.email, req.username));
        match FromDocument(d, now)
        case Success(u) => Success(SignupOutcome(store + {d}, d, u))
        case Failure(e) => Failure(HttpException(500, e))
  }

  /** A signup is refused as a conflict exactly when some stored document
      shares its email or its username. */
  lemma SignupConflictIffMatch(store: Store, req: SignupRequest, found: Option<Document>,
                               bcrypt: string -> string, newId: ObjectId, now: int)
    requires FindOne(store, ByEmailOrUsername(req.email, req.username), found)
    ensures (exists d :: d in store && (d.email == req.email || d.username == req.username)) <==>
            (var r := Signup(store, req, found, bcrypt, newId, now);
             r.Failure? && (r.error.detail == EmailTaken || r.error.detail == UsernameTaken))
  {
    if found.None? {
      assert forall d :: d in store ==> !Matches(d, ByEmailOrUsername(req.email, req.username));
    }
  }

  /** When no stored document has the new email, every conflict is reported
      as a taken username, whichever match the lookup returns. */
  lemma ConflictWithoutEmailIsUsername(store: Store, req: SignupRequest, found: Option<Document>,
                                       bcrypt: string -> string, newId: ObjectId, now: int)
    requires FindOne(store, ByEmailOrUsername(req.email, req.username), found)
    requires forall d :: d in store ==> d.email != req.email
    requires found.Some?
    ensures Signup(store, req, found, bcrypt, newId, now) == Failure(HttpException(400, UsernameTaken))
  {
    assert found.value in store;
  }

  /** A successful signup keeps emails and usernames unique. */
  lemma SignupKeepsKeysUnique(store: Store, req: SignupRequest, found: Option<Document>,
                              bcrypt: string -> string, newId: ObjectId, now: int)
    requires UniqueKeys(store)
    requires FindOne(store, ByEmailOrUsername(req.email, req.username), found)
    requires Signup(store, req, found, bcrypt, newId, now).Success?
    ensures UniqueKeys(Signup(store, req, found, bcrypt, newId, now).value.store)
  {
    var r := Signup(store, req, found, bcrypt, newId, now).value;
    assert forall b :: b in store ==> !Matches(b, ByEmailOrUsername(req.email, req.username));
  }

  /** The `access_token` cookie set on login. */
  datatype Cookie = Cookie(name: string, value: string, maxAge: int, httpOnly: bool, sameSite: string, secure: bool)

  /** The login response: the token's payload, the token, its type and the cookie. */
  datatype LoginSuccess = LoginSuccess(claims: Claims, accessToken: string, tokenType: string, cookie: Cookie)

  /** `login`. The password is checked before the account's state, so an
      inactive account with a wrong password gets 401, not 400. A document
      without `is_active` counts as active. */
  function Login(store: Store, creds: LoginRequest, found: Option<Document>,
                 verify: (string, string) -> bool, sign: Claims -> string, now: int): (r: Result<LoginSuccess, HttpException>)
    requires FindOne(store, ByEmail(creds.email), found)
    ensures found.None? ==> r == Failure(HttpException(401, IncorrectLogin))
    ensures found.Some? && !verify(creds.password, found.value.hashedPassword) ==> r == Failure(HttpException(401, IncorrectLogin))
    ensures found.Some? && verify(creds.password, found.value.hashedPassword) && found.value.isActive == Some(false)
            ==> r == Failure(HttpException(400, InactiveUser))
    ensures r.Success? <==> found.Some? && verify(creds.password, found.value.hashedPassword) && found.value.isActive != Some(false)
    ensures r.Success? ==> var c := r.value.claims;
              && "sub" in c && c["sub"] == Str(creds.email)
              && "exp" in c && c["exp"] == Time(now + AccessTokenExpireMinutes * 60)
              && r.value.accessToken == sign(c)
              && r.value.tokenType == "bearer"
    ensures r.Success? ==> r.value.cookie.name == CookieName && r.value.cookie.value == "Bearer " + r.value.accessToken
                           && r.value.cookie.maxAge == AccessTokenExpireMinutes * 60 && r.value.cookie.httpOnly
  {
    match found
    case None => Failure(HttpException(401, IncorrectLogin))
    case Some(d) =>
      match VerifyPassword(Chars(creds.password), d.hashedPassword, verify)
      case Failure(e) => Failure(e)
      case Success(ok) =>
        if !ok then Failure(HttpException(401, IncorrectLogin))
        else if !d.isActive.GetOr(true) then Failure(HttpException(400, InactiveUser))
        else
          var claims := TokenClaims(map["sub" := Str(d.email)], Some(AccessTokenExpireMinutes * 60), now);
          var token := sign(claims);
          Success(LoginSuccess(claims, token, "bearer",
            Cookie(CookieName, "Bearer " + token, AccessTokenExpireMinutes * 60, true, "lax", false)))
  }

  /** An inactive account with a wrong password is told the credentials are
      wrong, not that it is inactive. */
  lemma WrongPasswordBeforeInactive(store: Store, creds: LoginRequest, d: Document,
                                    verify: (string, string) -> bool, sign: Claims -> string, now: int)
    requires FindOne(store, ByEmail(creds.email), Some(d))
    requires d.isActive == Some(false) && !verify(creds.password, d.hashedPassword)
    ensures Login(store, creds, Some(d), verify, sign, now).error.status == 401
  {
  }

  /** The token a login returns authenticates the same account on `/me`,
      provided the signature check returns the signed payload and the
      account's `_id` is well-formed. */
  lemma LoginThenMe(store: Store, creds: LoginRequest, found: Option<Document>,
                    verify: (string, string) -> bool, sign: Claims -> string,
                    unsign: string -> Option<Claims>, now: int, later: Option<Document>)
    requires UniqueKeys(store)
    requires forall c :: unsign(sign(c)) == Some(c)
    requires FindOne(store, ByEmail(creds.email), found)
    requires Login(store, creds, found, verify, sign, now).Success?
    requires FindOne(store, ByEmail(creds.email), later)
    requires found.Some? && !found.value.id.OtherValue?
    ensures GetCurrentUser(store, unsign(Login(store, creds, found, verify, sign, now).value.accessToken), later, now)
            == Success(FromDocument(found.value, now).value)
  {
    var s := Login(store, creds, found, verify, sign, now).value;
    assert unsign(s.accessToken) == Some(s.claims);
    FindByEmailIsDeterministic(store, creds.email, found, later);
  }

  datatype LogoutResponse = LogoutResponse(deletedCookie: string, message: string)

  /** `logout` needs no authentication and never fails: it deletes the
      `access_token` cookie. */
  function Logout(): (r: LogoutResponse)
    ensures r.deletedCookie == CookieName
    ensures r.message == "Successfully logged out"
  {
    LogoutResponse(CookieName, "Successfully logged out")
  }
}

=== FILE: auth_utils.dfy ===
/** Password hashing, access tokens and the current-user dependency
    (backend/app/utils/auth.py). bcrypt and the JWT signature are not
    modelled: they are the parameters `bcrypt`, `verify`, `sign` and the
    already-verified payload `decoded`. */
module AuthUtils {
  import opened Wrappers
  import Utf8
  import Bytes
  import opened UserModel
  import opened UserStore

  /** An `HTTPException` raised to the client: status code and `detail`. */
  datatype HttpException = HttpException(status: int, detail: string)

  const BcryptMaxBytes: nat := 72
  const AccessTokenExpireMinutes: nat := 30

  const NotUtf8 := "Password bytes are not valid UTF-8"
  const TooLong := "Password too long for bcrypt (max 72 bytes). Use a shorter password or switch to a different hashing scheme."
  const BadCredentials := "Could not validate credentials"

  /** The `Union[str, bytes]` argument of the password helpers. */
  datatype Password = Chars(text: string) | Raw(bytes: seq<Bytes.Byte>)

  /** The bytes whose length bcrypt limits. */
  function PasswordBytes(pw: Password): seq<Bytes.Byte> {
    match pw
    case Chars(s) => Utf8.Encode(s)
    case Raw(b) => b
  }

  /** The text handed to passlib: bytes are decoded first, and bytes that are
      not UTF-8 are refused with 400. */
  function PasswordText(pw: Password): (r: Result<string, HttpException>)
    ensures r.Failure? <==> pw.Raw? && !Utf8.IsValid(pw.bytes)
    ensures r.Failure? ==> r.error == HttpException(400, NotUtf8)
    ensures r.Success? ==> Utf8.Decode(PasswordBytes(pw)) == Some(r.value)
  {
    match pw
    case Chars(s) => Utf8.DecodeEncode(s); Success(s)
    case Raw(b) =>
      match Utf8.Decode(b)
      case None => Failure(HttpException(400, NotUtf8))
      case Some(s) => Success(s)
  }

  /** `verify_password`: decoding as above, then bcrypt's verdict. */
  function VerifyPassword(pw: Password, hashed: string, verify: (string, string) -> bool): (r: Result<bool, HttpException>)
    ensures pw.Chars? ==> r == Success(verify(pw.text, hashed))
    ensures pw.Raw? && !Utf8.IsValid(pw.bytes) ==> r == Failure(HttpException(400, NotUtf8))
    ensures pw.Raw? && Utf8.IsValid(pw.bytes) ==> r == Success(verify(Utf8.Decode(pw.bytes).value, hashed))
  {
    match PasswordText(pw)
    case Failure(e) => Failure(e)
    case Success(s) => Success(verify(s, hashed))
  }

  /** `get_password_hash`: refuses bytes that are not UTF-8 and anything
      longer than 72 bytes once encoded, then hashes with `bcrypt`. */
  function GetPasswordHash(pw: Password, bcrypt: string -> string): (r: Result<string, HttpException>)
    ensures r.Success? <==> Utf8.IsValid(PasswordBytes(pw)) && |PasswordBytes(pw)| <= BcryptMaxBytes
    ensures pw.Raw? && !Utf8.IsValid(pw.bytes) ==> r == Failure(HttpException(400, NotUtf8))
    ensures Utf8.IsValid(PasswordBytes(pw)) && |PasswordBytes(pw)| > BcryptMaxBytes ==> r == Failure(HttpException(400, TooLong))
    ensures r.Success? ==> exists s :: Utf8.Decode(PasswordBytes(pw)) == Some(s) && r.value == bcrypt(s)
  {
    match PasswordText(pw)
    case Failure(e) => Failure(e)
    case Success(s) =>
      if |PasswordBytes(pw)| > BcryptMaxBytes then Failure(HttpException(400, TooLong))
      else Success(bcrypt(s))
  }

  /** A string and its UTF-8 bytes are hashed, and refused, alike. */
  lemma HashAgreesOnEncoding(s: string, bcrypt: string -> string)
    ensures GetPasswordHash(Chars(s), bcrypt) == GetPasswordHash(Raw(Utf8.Encode(s)), bcrypt)
  {
    Utf8.DecodeEncode(s);
  }

  /** The limit counts encoded bytes: 72 ASCII characters or 36 two-byte
      characters are accepted, while 73 ASCII characters or 37 two-byte
      characters (37 characters, 74 bytes) are refused. */
  lemma LimitCountsBytes(bcrypt: string -> string)
    ensures GetPasswordHash(Chars(seq(72, _ => 'a')), bcrypt).Success?
    ensures GetPasswordHash(Chars(seq(73, _ => 'a')), bcrypt) == Failure(HttpException(400, TooLong))
    ensures GetPasswordHash(Chars(seq(36, _ => 'é')), bcrypt).Success?
    ensures GetPasswordHash(Chars(seq(37, _ => 'é')), bcrypt) == Failure(HttpException(400, TooLong))
  {
    Utf8.UniformLength(seq(72, _ => 'a'), 'a');
    Utf8.UniformLength(seq(73, _ => 'a'), 'a');
    Utf8.UniformLength(seq(36, _ => 'é'), 'é');
    Utf8.UniformLength(seq(37, _ => 'é'), 'é');
    Utf8.DecodeEncode(seq(72, _ => 'a'));
    Utf8.DecodeEncode(seq(73, _ => 'a'));
    Utf8.DecodeEncode(seq(36, _ => 'é'));
    Utf8.DecodeEncode(seq(37, _ => 'é'));
  }

  /** A JWT claim value: a string, a timestamp in seconds, or JSON `null`. */
  datatype Claim = Str(s: string) | Time(seconds: int) | Null

  type Claims = map<string, Claim>

  /** The payload `create_access_token` signs: a copy of `data` with `exp`
      added. A present but zero `expires_delta` is falsy in Python and falls
      back to the configured lifetime. Times are in seconds; `now` is the clock. */
  function TokenClaims(data: Claims, expiresDelta: Option<int>, now: int): (payload: Claims)
    ensures payload.Keys == data.Keys + {"exp"}
    ensures forall k :: k in data && k != "exp" ==> payload[k] == data[k]
    ensures expiresDelta.Some? && expiresDelta.value != 0 ==> payload["exp"] == Time(now + expiresDelta.value)
    ensures expiresDelta.None? || expiresDelta.value == 0 ==> payload["exp"] == Time(now + AccessTokenExpireMinutes * 60)
  {
    var expire := if expiresDelta.Some? && expiresDelta.value != 0
                   then now + expiresDelta.value
                   else now + AccessTokenExpireMinutes * 60;
    data["exp" := Time(expire)]
  }

  /** `create_access_token`: the signed payload. */
  function CreateAccessToken(data: Claims, expiresDelta: Option<int>, now: int, sign: Claims -> string): string {
    sign(TokenClaims(data, expiresDelta, now))
  }

  /** `decode_access_token`. `decoded` is what `jwt.decode` produced, `None`
      when it raised `JWTError` (bad signature, expired, or a `sub` that is
      not a string). */
  function DecodeAccessToken(decoded: Option<Claims>): (r: Result<string, HttpException>)
    ensures r.Success? <==> decoded.Some? && "sub" in decoded.value && decoded.value["sub"].Str?
    ensures r.Success? ==> r.value == decoded.value["sub"].s
    ensures r.Failure? ==> r.error == HttpException(401, BadCredentials)
  {
    match decoded
    case None => Failure(HttpException(401, BadCredentials))
    case Some(payload) =>
      if "sub" in payload && payload["sub"].Str? then Success(payload["sub"].s)
      else Failure(HttpException(401, BadCredentials))
  }

  /** Decoding a token built for `email` yields `email` for any requested
      lifetime, provided the signature check returns the signed payload. That
      hypothesis leaves expiry out: a real `jwt.decode` refuses an expired
      token, which `decoded` models as `None`. */
  lemma TokenRoundTrip(email: string, expiresDelta: Option<int>, now: int,
                       sign: Claims -> string, unsign: string -> Option<Claims>)
    requires forall c :: unsign(sign(c)) == Some(c)
    ensures DecodeAccessToken(unsign(CreateAccessToken(map["sub" := Str(email)], expiresDelta, now, sign))) == Success(email)
  {
    var c := TokenClaims(map["sub" := Str(email)], expiresDelta, now);
    assert unsign(sign(c)) == Some(c);
    assert c["sub"] == Str(email);
  }

  /** The `find_one` answer is constrained only once the token names an email. */
  ghost predicate LookupFor(store: Store, decoded: Option<Claims>, found: Option<Document>) {
    var email := DecodeAccessToken(decoded);
    email.Success? ==> FindOne(store, ByEmail(email.value), found)
  }

  /** `get_current_user`: decode the token (401), look the email up (401
      "User not found"), build the `User` (an invalid `_id` is a server
      error), refuse an inactive user (400). */
  function GetCurrentUser(store: Store, decoded: Option<Claims>, found: Option<Document>, now: int): (r: Result<User, HttpException>)
    requires LookupFor(store, decoded, found)
    ensures DecodeAccessToken(decoded).Failure? ==> r == Failure(HttpException(401, BadCredentials))
    ensures DecodeAccessToken(decoded).Success? && found.None? ==> r == Failure(HttpException(401, "User not found"))
    ensures DecodeAccessToken(decoded).Success? && found.Some? && !found.value.id.OtherValue? && found.value.isActive == Some(false)
            ==> r == Failure(HttpException(400, "Inactive user"))
    ensures r.Success? <==> DecodeAccessToken(decoded).Success? && found.Some? && !found.value.id.OtherValue? && found.value.isActive != Some(false)
    ensures r.Success? ==> found.Some? && found.value in store && r.value.isActive
    ensures r.Success? ==> r.value.email == DecodeAccessToken(decoded).value
    ensures r.Success? ==> FromDocument(found.value, now) == Success(r.value)
  {
    match DecodeAccessToken(decoded)
    case Failure(e) => Failure(e)
    case Success(email) =>
      match found
      case None => Failure(HttpException(401, "User not found"))
      case Some(d) =>
        match FromDocument(d, now)
        case Failure(_) => Failure(HttpException(500, "Internal Server Error"))
        case Success(user) =>
          if !user.isActive then Failure(HttpException(400, "Inactive user"))
          else Success(user)
  }

  /** Under the unique indexes, a token naming `email` authenticates exactly
      when some stored document with that email is active and well-formed. */
  lemma CurrentUserIffActiveDocument(store: Store, decoded: Option<Claims>, found: Option<Document>, now: int, email: string)
    requires UniqueKeys(store)
    requires DecodeAccessToken(decoded) == Success(email)
    requires LookupFor(store, decoded, found)
    ensures GetCurrentUser(store, decoded, found, now).Success? <==>
            exists d :: d in store && d.email == email && !d.id.OtherValue? && d.isActive != Some(false)
  {
    if d :| d in store && d.email == email && !d.id.OtherValue? && d.isActive != Some(false) {
      FindByEmailIsDeterministic(store, email, found, Some(d));
    }
  }
}

=== FILE: bytes.dfy ===
/** Bytes and the lower-case hex digits shared by the codecs. */
module Bytes {
  type Byte = b: int | 0 <= b < 256

  const HexDigits: string := "0123456789abcdef"
}

=== FILE: json.dfy ===
/** The part of `JSON.stringify` the client uses: strings and booleans. */
module Json {
  import opened Bytes

  /** A character as it appears inside a JSON string literal: quote and
      backslash are escaped, control characters get their short escape or a
      `\u00XX` escape. */
  function EscapeChar(c: char): string {
    if c == '"' then "\\\""
    else if c == '\\' then "\\\\"
    else if c as int == 8 then "\\b"
    else if c as int == 12 then "\\f"
    else if c == '\n' then "\\n"
    else if c == '\r' then "\\r"
    else if c == '\t' then "\\t"
    else if (c as int) < 0x20 then "\\u00" + [HexDigits[(c as int) / 16], HexDigits[(c as int) % 16]]
    else [c]
  }

  function Escape(s: string): string {
    if s == [] then "" else EscapeChar(s[0]) + Escape(s[1..])
  }

  function Quote(s: string): string {
    "\"" + Escape(s) + "\""
  }

  function BoolText(b: bool): string {
    if b then "true" else "false"
  }
}

=== FILE: local_storage.dfy ===
/** The browser's `localStorage` as a map from keys to strings, with the two
    keys the session layer owns. */
module LocalStorage {
  import opened Wrappers

  type Store = map<string, string>

  const AccessTokenKey := "access_token"
  const UserKey := "user"

  function GetItem(st: Store, key: string): Option<string> {
    if key in st then Some(st[key]) else None
  }

  /** A value read back, judged the way `if (token)` judges it: a missing
      key and the empty string are both falsy. */
  predicate Truthy(v: Option<string>) {
    v.Some? && v.value != ""
  }

  function RemoveItem(st: Store, key: string): (r: Store)
    ensures r.Keys == st.Keys - {key}
    ensures forall k :: k in r ==> r[k] == st[k]
  {
    st - {key}
  }

  /** Both session keys removed, every other key untouched. */
  function ClearSession(st: Store): (r: Store)
    ensures AccessTokenKey !in r && UserKey !in r
    ensures forall k :: k != AccessTokenKey && k != UserKey ==> (k in r <==> k in st)
    ensures forall k :: k in r ==> r[k] == st[k]
  {
    RemoveItem(RemoveItem(st, AccessTokenKey), UserKey)
  }

  lemma ClearSessionIdempotent(st: Store)
    ensures ClearSession(ClearSession(st)) == ClearSession(st)
  {
  }
}

=== FILE: login_form.dfy ===
/** The sign-in form (frontend/src/components/Login.tsx): field validation
    and the submit handler that gates the session's `login`. */
module LoginForm {
  import opened Wrappers
  import opened ApiClient
  import AuthContext

  const EmailRequired := "Email is required"
  const InvalidEmail := "Please enter a valid email"
  const PasswordRequired := "Password is required"
  const PasswordTooShort := "Password must be at least 6 characters"
  const MinPasswordLength := 6

  /** The characters JavaScript's `\s` matches. */
  predicate IsSpace(c: char) {
    var n := c as int;
    || 0x09 <= n <= 0x0D || n == 0x20 || n == 0xA0 || n == 0x1680
    || 0x2000 <= n <= 0x200A || n == 0x2028 || n == 0x2029 || n == 0x202F
    || n == 0x205F || n == 0x3000 || n == 0xFEFF
  }

  /** `s[p]` is an `@` and `s[q]` a `.` placed so that `\S+@\S+\.\S+`
      matches around them: a non-space before the `@`, only non-spaces and at
      least one of them between the two, a non-space after the `.`. */
  predicate Witness(s: string, p: int, q: int)
    requires 0 < p && p + 1 < q && q + 1 < |s|
  {
    && s[p] == '@' && s[q] == '.'
    && !IsSpace(s[p - 1]) && !IsSpace(s[q + 1])
    && forall k | p < k < q :: !IsSpace(s[k])
  }

  /** Some match of the pattern ends before index `n`. */
  predicate MatchBefore(s: string, n: int) {
    exists p, q | 0 < p && p + 1 < q && q + 1 < n && q + 1 < |s| :: Witness(s, p, q)
  }

  /** `/\S+@\S+\.\S+/.test(s)`: the pattern is not anchored, so it matches
      anywhere in the string. */
  predicate EmailPattern(s: string) {
    MatchBefore(s, |s|)
  }

  /** A match whose `.` sits just before index `i` lies inside the current
      run of non-space characters, so its `@` is at or after the run's first
      usable `@`. */
  lemma AtBeforeDot(s: string, runStart: int, firstAt: int, i: int, p: int, q: int)
    requires 0 <= runStart <= i < |s|
    requires forall k | runStart <= k < i :: !IsSpace(s[k])
    requires runStart == 0 || IsSpace(s[runStart - 1])
    requires firstAt == -1 ==> forall p | runStart < p < i :: s[p] != '@'
    requires firstAt != -1 ==> runStart < firstAt < i && s[firstAt] == '@'
    requires firstAt != -1 ==> forall p | runStart < p < firstAt :: s[p] != '@'
    requires 0 < p && p + 1 < q && q + 1 == i && Witness(s, p, q)
    ensures firstAt != -1 && firstAt + 1 < q
  {
    assert forall k | p - 1 <= k <= q + 1 :: !IsSpace(s[k]);
    assert runStart < p;
  }

  /** A single left-to-right pass deciding the pattern, tracking the current
      run of non-space characters and the first usable `@` in it. */
  method TestEmail(s: string) returns (found: bool)
    ensures found <==> EmailPattern(s)
  {
    found := false;
    var runStart := 0;
    var firstAt := -1;
    var i := 0;
    while i < |s| && !found
      invariant 0 <= runStart <= i <= |s|
      invariant forall k | runStart <= k < i :: !IsSpace(s[k])
      invariant runStart == 0 || IsSpace(s[runStart - 1])
      invariant firstAt == -1 ==> forall p | runStart < p < i :: s[p] != '@'
      invariant firstAt != -1 ==> runStart < firstAt < i && s[firstAt] == '@'
      invariant firstAt != -1 ==> forall p | runStart < p < firstAt :: s[p] != '@'
      invariant found <==> MatchBefore(s, i)
      decreases |s| - i
    {
      if IsSpace(s[i]) {
        runStart, firstAt := i + 1, -1;
      } else {
        var ends := 2 <= i && s[i - 1] == '.' && firstAt != -1 && firstAt + 1 < i - 1;
        forall p, q | 0 < p && p + 1 < q && q + 1 == i && Witness(s, p, q)
          ensures ends
        {
          AtBeforeDot(s, runStart, firstAt, i, p, q);
        }
        if ends {
          assert Witness(s, firstAt, i - 1);
        }
        found := ends;
        if s[i] == '@' && firstAt == -1 && runStart < i {
          firstAt := i;
        }
      }
      i := i + 1;
    }
  }

  /** `password.length`: JavaScript counts UTF-16 code units, so a character
      beyond U+FFFF counts twice. */
  function Utf16Length(s: string): (n: nat)
    ensures |s| <= n <= 2 * |s|
  {
    if s == [] then 0 else (if s[0] as int >= 0x1_0000 then 2 else 1) + Utf16Length(s[1..])
  }

  datatype FormErrors = FormErrors(email: string, password: string)

  /** `validateForm`: both fields are checked, neither check stops the other.
      `valid` is tracked separately, as the source does. */
  function ValidateForm(email: string, password: string): (r: (FormErrors, bool))
    ensures email == "" ==> r.0.email == EmailRequired
    ensures email != "" && !EmailPattern(email) ==> r.0.email == InvalidEmail
    ensures r.0.email == "" <==> EmailPattern(email)
    ensures password == "" ==> r.0.password == PasswordRequired
    ensures password != "" && Utf16Length(password) < MinPasswordLength ==> r.0.password == PasswordTooShort
    ensures r.0.password == "" <==> Utf16Length(password) >= MinPasswordLength
    ensures r.1 <==> r.0.email == "" && r.0.password == ""
  {
    var emailError :=
      if email == "" then EmailRequired
      else if !EmailPattern(email) then InvalidEmail
      else "";
    var emailOk := email != "" && EmailPattern(email);
    var passwordError :=
      if password == "" then PasswordRequired
      else if Utf16Length(password) < MinPasswordLength then PasswordTooShort
      else "";
    var passwordOk := password != "" && Utf16Length(password) >= MinPasswordLength;
    (FormErrors(emailError, passwordError), emailOk && passwordOk)
  }

  /** Each field's message depends on that field alone. */
  lemma FieldsIndependent(e1: string, e2: string, p1: string, p2: string)
    ensures ValidateForm(e1, p1).0.email == ValidateForm(e1, p2).0.email
    ensures ValidateForm(e1, p1).0.password == ValidateForm(e2, p1).0.password
  {
  }

  datatype Submitted = Submitted(
    errors: FormErrors,
    isLoading: bool,
    session: AuthContext.Session,
    navigatedTo: Option<string>)

  /** `handleSubmit`: an invalid form only shows its messages; a valid one
      calls `login` with the form's fields, navigates to `/home` only if it
      resolves, and clears `isLoading` whatever happened. */
  function HandleSubmit(email: string, password: string, isLoading: bool, s: AuthContext.Session,
                        loginOutcome: Outcome<LoginData>, me: Outcome<AuthContext.User>): (r: Submitted)
    ensures r.errors == ValidateForm(email, password).0
    ensures !ValidateForm(email, password).1 ==> r.session == s && r.navigatedTo.None? && r.isLoading == isLoading
    ensures ValidateForm(email, password).1 ==> !r.isLoading
    ensures ValidateForm(email, password).1 ==> r.session == AuthContext.Login(s, email, password, loginOutcome, me).session
    ensures ValidateForm(email, password).1 ==>
              && |r.session.client.sent| > |s.client.sent|
              && r.session.client.sent[|s.client.sent|].body == map["email" := email, "password" := password]
    ensures r.navigatedTo.Some? <==> ValidateForm(email, password).1 && loginOutcome.Ok? && me.Ok?
    ensures r.navigatedTo.Some? ==> r.navigatedTo.value == "/home" && r.session.user == Some(me.data)
  {
    var (errors, valid) := ValidateForm(email, password);
    if !valid then Submitted(errors, isLoading, s, None)
    else
      var step := AuthContext.Login(s, email, password, loginOutcome, me);
      Submitted(errors, false, step.session, if step.settled.Resolved? then Some("/home") else None)
  }

  /** Example inputs: the pattern needs something on each side of `@` and
      of the `.` that follows it, all without spaces. */
  lemma EmailExamples()
    ensures EmailPattern("a@b.c")
    ensures !EmailPattern("a@.c")
    ensures EmailPattern(" x a@b.c y")
  {
    assert Witness("a@b.c", 1, 3);
    assert Witness(" x a@b.c y", 4, 6);
  }
}

=== FILE: meeting.dfy ===
/** The meeting screen's state (frontend/src/components/Translator.tsx): the
    side-panel flags and the participant strip beside the presenter. */
module Meeting {
  import opened Wrappers

  datatype Panels = Panels(showChat: bool, showParticipants: bool)

  const Closed := Panels(false, false)

  /** The participants button: toggle the list, close the chat. */
  function ParticipantsButton(p: Panels): Panels
  {
    p.(showParticipants := !p.showParticipants, showChat := false)
  }

  /** The chat button: toggle the chat, close the list. */
  function ChatButton(p: Panels): Panels
  {
    p.(showChat := !p.showChat, showParticipants := false)
  }

  /** The participants tab inside the open panel. */
  function ParticipantsTab(p: Panels): Panels
  {
    p.(showParticipants := true, showChat := false)
  }

  /** The chat tab inside the open panel. */
  function ChatTab(p: Panels): Panels
  {
    p.(showChat := true, showParticipants := false)
  }

  datatype Click = ParticipantsButtonClick | ChatButtonClick | ParticipantsTabClick | ChatTabClick

  function Press(p: Panels, c: Click): Panels {
    match c
    case ParticipantsButtonClick => ParticipantsButton(p)
    case ChatButtonClick => ChatButton(p)
    case ParticipantsTabClick => ParticipantsTab(p)
    case ChatTabClick => ChatTab(p)
  }

  function PressAll(p: Panels, clicks: seq<Click>): Panels
    decreases |clicks|
  {
    if clicks == [] then p else PressAll(Press(p, clicks[0]), clicks[1..])
  }

  predicate Exclusive(p: Panels) {
    !(p.showChat && p.showParticipants)
  }

  /** Every click leaves at most one panel open, whatever was open before;
      the clicked panel is the one that may be open afterwards. */
  lemma ClickIsExclusive(p: Panels, c: Click)
    ensures Exclusive(Press(p, c))
    ensures (c.ParticipantsButtonClick? || c.ParticipantsTabClick?) ==> !Press(p, c).showChat
    ensures (c.ChatButtonClick? || c.ChatTabClick?) ==> !Press(p, c).showParticipants
  {
  }

  /** A header button pressed twice closes what it opened (or reopens what it
      closed), provided the other panel was closed to begin with. */
  lemma ButtonsToggleBack(p: Panels)
    ensures !p.showChat ==> ParticipantsButton(ParticipantsButton(p)) == p
    ensures !p.showParticipants ==> ChatButton(ChatButton(p)) == p
    ensures ParticipantsButton(p).showParticipants != p.showParticipants
    ensures ChatButton(p).showChat != p.showChat
  {
  }

  /** A tab click opens its own panel; clicking it again changes nothing. */
  lemma TabsIdempotent(p: Panels)
    ensures ParticipantsTab(ParticipantsTab(p)) == ParticipantsTab(p) && ParticipantsTab(p).showParticipants
    ensures ChatTab(ChatTab(p)) == ChatTab(p) && ChatTab(p).showChat
  {
  }

  /** Whatever is clicked, chat and participants are never shown together. */
  lemma {:induction false} NeverBoth(clicks: seq<Click>, p: Panels)
    requires Exclusive(p)
    ensures Exclusive(PressAll(p, clicks))
    decreases |clicks|
  {
    if clicks != [] {
      NeverBoth(clicks[1..], Press(p, clicks[0]));
    }
  }

  datatype Tab = ChatTabPane | ParticipantsTabPane

  predicate PanelShown(p: Panels) {
    p.showChat || p.showParticipants
  }

  /** The side panel's `defaultValue`: the tab its uncontrolled `Tabs` opens
      on when the panel mounts, `None` while the panel is not rendered. */
  function SidePanel(p: Panels): (tab: Option<Tab>)
    ensures tab.Some? <==> PanelShown(p)
    ensures tab.Some? ==> (tab.value == ChatTabPane <==> p.showChat)
  {
    if PanelShown(p) then Some(if p.showChat then ChatTabPane else ParticipantsTabPane) else None
  }

  /** The flags together with the tab the mounted panel shows. The `Tabs`
      element reads `defaultValue` only when it mounts; among the clicks
      modelled here, afterwards only a tab click changes the selection, and
      closing both panels unmounts it. */
  datatype Screen = Screen(panels: Panels, tab: Option<Tab>)

  const InitialScreen := Screen(Closed, None)

  predicate WellFormed(s: Screen) {
    Exclusive(s.panels) && (s.tab.Some? <==> PanelShown(s.panels))
  }

  /** One click on the rendered screen. A tab can only be clicked while the
      panel is shown; a header button that switches panels while the panel
      stays mounted leaves the selected tab alone. */
  function ScreenPress(s: Screen, c: Click): (s': Screen)
    ensures (c.ParticipantsTabClick? || c.ChatTabClick?) && s.tab.None? ==> s' == s
    ensures !((c.ParticipantsTabClick? || c.ChatTabClick?) && s.tab.None?) ==> s'.panels == Press(s.panels, c)
    ensures WellFormed(s) ==> WellFormed(s')
    ensures c.ParticipantsTabClick? && s.tab.Some? ==> s'.tab == Some(ParticipantsTabPane)
    ensures c.ChatTabClick? && s.tab.Some? ==> s'.tab == Some(ChatTabPane)
    ensures (c.ParticipantsButtonClick? || c.ChatButtonClick?) && s.tab.None? ==> s'.tab == SidePanel(s'.panels)
    ensures (c.ParticipantsButtonClick? || c.ChatButtonClick?) && s.tab.Some? && PanelShown(s'.panels) ==> s'.tab == s.tab
  {
    if (c.ParticipantsTabClick? || c.ChatTabClick?) && s.tab.None? then s
    else
      var p := Press(s.panels, c);
      if !PanelShown(p) then Screen(p, None)
      else if c.ParticipantsTabClick? then Screen(p, Some(ParticipantsTabPane))
      else if c.ChatTabClick? then Screen(p, Some(ChatTabPane))
      else if s.tab.None? then Screen(p, SidePanel(p))
      else s.(panels := p)
  }

  function ScreenPressAll(s: Screen, clicks: seq<Click>): Screen
    decreases |clicks|
  {
    if clicks == [] then s else ScreenPressAll(ScreenPress(s, clicks[0]), clicks[1..])
  }

  /** From the initial screen, the panel is mounted exactly while a flag is
      set, and the two flags are never set together. */
  lemma {:induction false} ScreenStaysWellFormed(s: Screen, clicks: seq<Click>)
    requires WellFormed(s)
    ensures WellFormed(ScreenPressAll(s, clicks))
    decreases |clicks|
  {
    if clicks != [] {
      ScreenStaysWellFormed(ScreenPress(s, clicks[0]), clicks[1..]);
    }
  }

  /** With the participants list open, the chat button opens the chat but
      the panel keeps showing the participants tab. */
  lemma HeaderSwitchKeepsTab()
    ensures var s := ScreenPressAll(InitialScreen, [ParticipantsButtonClick, ChatButtonClick]);
            s.panels.showChat && s.tab == Some(ParticipantsTabPane)
  {
    var s1 := ScreenPress(InitialScreen, ParticipantsButtonClick);
    assert s1 == Screen(Panels(false, true), Some(ParticipantsTabPane));
    assert ScreenPressAll(s1, [ChatButtonClick]) == ScreenPress(s1, ChatButtonClick);
  }

  /** The selected tab agrees with the flags whenever the panel has just
      been mounted or a tab was the last thing clicked. */
  lemma TabAgreesAfterMountOrTabClick(s: Screen, c: Click)
    requires WellFormed(s)
    requires s.tab.None? || c.ParticipantsTabClick? || c.ChatTabClick?
    ensures ScreenPress(s, c).tab == SidePanel(ScreenPress(s, c).panels)
  {
    ClickIsExclusive(s.panels, c);
  }

  datatype Participant = Participant(id: int, name: string, isPresenting: bool, isMuted: bool, isVideoOn: bool)

  /** `participants.find(p => p.isPresenting)`. */
  function Presenter(ps: seq<Participant>): (r: Option<Participant>)
    ensures r.None? <==> forall i | 0 <= i < |ps| :: !ps[i].isPresenting
    ensures r.Some? ==> exists i | 0 <= i < |ps| :: ps[i] == r.value && ps[i].isPresenting
                          && forall j | 0 <= j < i :: !ps[j].isPresenting
  {
    if ps == [] then None
    else if ps[0].isPresenting then Some(ps[0])
    else
      var r := Presenter(ps[1..]);
      assert r.Some? ==> exists i | 0 <= i < |ps| :: ps[i] == r.value && ps[i].isPresenting
                          && forall j | 0 <= j < i :: !ps[j].isPresenting by {
        if r.Some? {
          var i :| 0 <= i < |ps| - 1 && ps[1..][i] == r.value && ps[1..][i].isPresenting
                   && forall j | 0 <= j < i :: !ps[1..][j].isPresenting;
          assert ps[i + 1] == r.value;
        }
      }
      r
  }

  /** `participants.filter(p => !p.isPresenting)`. */
  function NonPresenters(ps: seq<Participant>): (r: seq<Participant>)
    ensures |r| <= |ps|
    ensures forall i | 0 <= i < |r| :: !r[i].isPresenting
  {
    if ps == [] then []
    else if ps[0].isPresenting then NonPresenters(ps[1..])
    else [ps[0]] + NonPresenters(ps[1..])
  }

  /** `a` is `b` with some elements dropped, order kept. */
  predicate Subsequence<T(==)>(a: seq<T>, b: seq<T>)
    decreases |b|
  {
    if a == [] then true
    else if b == [] then false
    else (a[0] == b[0] && Subsequence(a[1..], b[1..])) || Subsequence(a, b[1..])
  }

  /** The filter keeps every non-presenter, as often as it occurs and in
      the order of the roster, and drops every presenter. */
  lemma {:induction false} NonPresentersInOrder(ps: seq<Participant>)
    ensures Subsequence(NonPresenters(ps), ps)
    ensures forall x :: x in ps && !x.isPresenting <==> x in NonPresenters(ps)
    ensures forall x :: multiset(NonPresenters(ps))[x] == if x.isPresenting then 0 else multiset(ps)[x]
  {
    if ps != [] {
      NonPresentersInOrder(ps[1..]);
      assert ps == [ps[0]] + ps[1..];
      assert multiset(ps) == multiset{ps[0]} + multiset(ps[1..]);
      if !ps[0].isPresenting {
        assert NonPresenters(ps) == [ps[0]] + NonPresenters(ps[1..]);
        assert NonPresenters(ps)[1..] == NonPresenters(ps[1..]);
        assert multiset(NonPresenters(ps)) == multiset{ps[0]} + multiset(NonPresenters(ps[1..]));
      }
    }
  }

  const StripSize := 3

  /** The strip: the first three non-presenters. */
  function Strip(ps: seq<Participant>): (r: seq<Participant>)
    ensures |r| <= StripSize
    ensures r <= NonPresenters(ps)
    ensures |r| == StripSize || r == NonPresenters(ps)
  {
    var others := NonPresenters(ps);
    if |others| <= StripSize then others else others[..StripSize]
  }

  /** The "+N more" card: shown when more than three non-presenters exist,
      counting those the strip leaves out. */
  function MoreCount(ps: seq<Participant>): (r: Option<nat>)
    ensures r.Some? <==> |NonPresenters(ps)| > StripSize
    ensures r.Some? ==> r.value > 0
  {
    var n := |NonPresenters(ps)|;
    if n > StripSize then Some(n - StripSize) else None
  }

  /** Strip and card together account for every non-presenter once. */
  lemma StripAndMoreCoverAll(ps: seq<Participant>)
    ensures |Strip(ps)| + MoreCount(ps).GetOr(0) == |NonPresenters(ps)|
    ensures MoreCount(ps).Some? ==> Strip(ps) + NonPresenters(ps)[StripSize..] == NonPresenters(ps)
  {
  }

  /** The hard-coded roster: "You" presents, the other three fill the strip
      and no "+N more" card is shown. */
  const Roster: seq<Participant> := [
    Participant(1, "You", true, false, true),
    Participant(2, "John Smith", false, true, false),
    Participant(3, "Sarah Johnson", false, false, false),
    Participant(4, "Mike Wilson", false, false, false)
  ]

  lemma RosterLayout()
    ensures Presenter(Roster) == Some(Roster[0])
    ensures Strip(Roster) == Roster[1..]
    ensures MoreCount(Roster).None?
  {
    assert NonPresenters(Roster) == Roster[1..];
  }
}

=== FILE: theme.dfy ===
/** The colour-theme preference (src/contexts/ThemeContext.tsx): the saved
    choice or the system's, persisted under `darkMode` and mirrored by the
    `dark` class on the root element. The 100 ms timer that re-adds the
    transition class is taken as having fired. */
module Theme {
  import opened Wrappers
  import opened LocalStorage

  const DarkModeKey := "darkMode"
  const DarkClass := "dark"
  const TransitionClass := "theme-transition"

  datatype ThemeState = ThemeState(isDarkMode: bool, store: Store, rootClasses: set<string>)

  /** `JSON.stringify` of the flag. */
  function Persisted(dark: bool): (v: string)
    ensures v == "true" || v == "false"
    ensures v == "true" <==> dark
  {
    if dark then "true" else "false"
  }

  /** `JSON.parse` of a saved value, for the two values the provider writes. */
  function ParseSaved(v: string): (r: Option<bool>)
    ensures r.Some? <==> v == "true" || v == "false"
    ensures r.Some? ==> Persisted(r.value) == v
  {
    if v == "true" then Some(true) else if v == "false" then Some(false) else None
  }

  /** The lazy initial state: a saved value wins, otherwise the system
      preference. `None` stands for a saved value other than the two above. */
  function InitialDarkMode(store: Store, systemPrefersDark: bool): (r: Option<bool>)
    ensures DarkModeKey !in store ==> r == Some(systemPrefersDark)
    ensures DarkModeKey in store ==> r == ParseSaved(store[DarkModeKey])
  {
    match GetItem(store, DarkModeKey)
    case None => Some(systemPrefersDark)
    case Some(saved) => ParseSaved(saved)
  }

  /** The state the effect maintains: storage and the root class agree with the flag. */
  predicate Synced(t: ThemeState) {
    && DarkModeKey in t.store && t.store[DarkModeKey] == Persisted(t.isDarkMode)
    && (DarkClass in t.rootClasses <==> t.isDarkMode)
    && TransitionClass in t.rootClasses
  }

  /** The effect that runs after `isDarkMode` changes: persist the flag, set
      or clear `dark`, and (once the timer fires) restore the transition
      class. Nothing else in storage or on the root changes. */
  function ApplyEffect(t: ThemeState): (t': ThemeState)
    ensures Synced(t') && t'.isDarkMode == t.isDarkMode
    ensures forall k :: k != DarkModeKey ==> (k in t'.store <==> k in t.store)
    ensures forall k :: k in t'.store && k != DarkModeKey ==> t'.store[k] == t.store[k]
    ensures forall c :: c != DarkClass && c != TransitionClass ==> (c in t'.rootClasses <==> c in t.rootClasses)
  {
    var classes := t.rootClasses - {TransitionClass};
    var classes' := if t.isDarkMode then classes + {DarkClass} else classes - {DarkClass};
    t.(store := t.store[DarkModeKey := Persisted(t.isDarkMode)], rootClasses := classes' + {TransitionClass})
  }

  /** Mounting the provider: the initial flag, then the effect. */
  function Mount(store: Store, rootClasses: set<string>, systemPrefersDark: bool): (r: Option<ThemeState>)
    ensures r.Some? <==> InitialDarkMode(store, systemPrefersDark).Some?
    ensures r.Some? ==> Synced(r.value) && r.value.isDarkMode == InitialDarkMode(store, systemPrefersDark).value
  {
    match InitialDarkMode(store, systemPrefersDark)
    case None => None
    case Some(dark) => Some(ApplyEffect(ThemeState(dark, store, rootClasses)))
  }

  function ToggleDarkMode(t: ThemeState): (t': ThemeState)
    ensures t'.isDarkMode == !t.isDarkMode && Synced(t')
  {
    ApplyEffect(t.(isDarkMode := !t.isDarkMode))
  }

  /** `setTheme`: dark exactly for the name "dark". */
  function SetTheme(t: ThemeState, theme: string): (t': ThemeState)
    ensures t'.isDarkMode <==> theme == "dark"
    ensures Synced(t')
  {
    ApplyEffect(t.(isDarkMode := theme == "dark"))
  }

  /** On a settled state the effect changes nothing. */
  lemma EffectIdleWhenSynced(t: ThemeState)
    requires Synced(t)
    ensures ApplyEffect(t) == t
  {
    var t' := ApplyEffect(t);
    assert t'.store == t.store;
    assert t'.rootClasses == t.rootClasses;
  }

  /** Toggling twice gives back the settled state it started from. */
  lemma ToggleTwice(t: ThemeState)
    requires Synced(t)
    ensures ToggleDarkMode(ToggleDarkMode(t)) == t
  {
    var t2 := ToggleDarkMode(ToggleDarkMode(t));
    assert t2.store == t.store;
    assert t2.rootClasses == t.rootClasses;
  }

  lemma SetThemeIdempotent(t: ThemeState, theme: string)
    ensures SetTheme(SetTheme(t, theme), theme) == SetTheme(t, theme)
  {
    EffectIdleWhenSynced(SetTheme(t, theme));
  }

  /** A reload restores the last flag from storage, whatever the system
      preference is by then. */
  lemma ReloadRestores(t: ThemeState, rootClasses: set<string>, systemPrefersDark: bool)
    requires Synced(t)
    ensures Mount(t.store, rootClasses, systemPrefersDark).Some?
    ensures Mount(t.store, rootClasses, systemPrefersDark).value.isDarkMode == t.isDarkMode
  {
    assert ParseSaved(Persisted(t.isDarkMode)) == Some(t.isDarkMode);
  }
}

=== FILE: user_model.dfy ===
/** The server's `User` record (backend/app/models/user.py): field defaults
    and the `_id` coercion applied before validation. */
module UserModel {
  import opened Wrappers
  import opened Bytes

  /** A MongoDB ObjectId: twelve raw bytes, shown as 24 lower-case hex digits. */
  datatype ObjectId = ObjectId(raw: seq<Byte>)

  function HexByte(b: Byte): string {
    [HexDigits[b / 16], HexDigits[b % 16]]
  }

  /** `str(ObjectId)`: the hex rendering of the raw bytes. */
  function Hex(bs: seq<Byte>): (h: string)
    ensures |h| == 2 * |bs|
  {
    if bs == [] then [] else HexByte(bs[0]) + Hex(bs[1..])
  }

  function DigitValue(c: char): (r: Option<int>)
    ensures r.Some? ==> 0 <= r.value < 16
  {
    if '0' <= c <= '9' then Some(c as int - '0' as int)
    else if 'a' <= c <= 'f' then Some(c as int - 'a' as int + 10)
    else None
  }

  /** Parses lower-case hex text back into bytes. */
  function Unhex(h: string): Option<seq<Byte>>
    decreases |h|
  {
    if h == [] then Some([])
    else if |h| == 1 then None
    else
      var hi, lo, rest := DigitValue(h[0]), DigitValue(h[1]), Unhex(h[2..]);
      if hi.Some? && lo.Some? && rest.Some? then Some([hi.value * 16 + lo.value] + rest.value) else None
  }

  lemma HexByteDigits(b: Byte)
    ensures DigitValue(HexByte(b)[0]) == Some(b / 16)
    ensures DigitValue(HexByte(b)[1]) == Some(b % 16)
  {
  }

  /** The hex rendering loses nothing: distinct ObjectIds have distinct strings. */
  lemma {:induction false} UnhexHex(bs: seq<Byte>)
    ensures Unhex(Hex(bs)) == Some(bs)
  {
    if bs != [] {
      var b := bs[0];
      var h := Hex(bs);
      assert h == HexByte(b) + Hex(bs[1..]);
      assert h[0] == HexByte(b)[0] && h[1] == HexByte(b)[1] && h[2..] == Hex(bs[1..]);
      HexByteDigits(b);
      UnhexHex(bs[1..]);
      assert b / 16 * 16 + b % 16 == b;
      assert Unhex(h) == Some([b] + bs[1..]);
      assert [b] + bs[1..] == bs;
    }
  }

  lemma HexInjective(a: ObjectId, b: ObjectId)
    requires Hex(a.raw) == Hex(b.raw)
    ensures a == b
  {
    UnhexHex(a.raw);
    UnhexHex(b.raw);
  }

  /** What the `_id` field of a stored document can hold. */
  datatype IdValue = NoId | Oid(oid: ObjectId) | Text(text: string) | OtherValue

  /** `validate_object_id`: `None` stays `None`, an ObjectId becomes its hex
      string, a string passes through, anything else raises "Invalid ObjectId". */
  function ValidateObjectId(v: IdValue): (r: Result<Option<string>, string>)
    ensures v.NoId? ==> r == Success(None)
    ensures v.Text? ==> r == Success(Some(v.text))
    ensures v.Oid? ==> r.Success? && r.value.Some? && Unhex(r.value.value) == Some(v.oid.raw)
    ensures v.OtherValue? <==> r == Failure("Invalid ObjectId")
  {
    match v
    case NoId => Success(None)
    case Oid(oid) => UnhexHex(oid.raw); Success(Some(Hex(oid.raw)))
    case Text(s) => Success(Some(s))
    case OtherValue => Failure("Invalid ObjectId")
  }

  /** A validated `User` model; times are seconds since the epoch. */
  datatype User = User(
    id: Option<string>,
    email: string,
    username: string,
    hashedPassword: string,
    isActive: bool,
    createdAt: int,
    updatedAt: Option<int>)

  /** A stored user document as MongoDB returns it. A field the document
      lacks is `None`; `_id` lacking is `NoId`. */
  datatype Document = Document(
    id: IdValue,
    email: string,
    username: string,
    hashedPassword: string,
    isActive: Option<bool>,
    createdAt: Option<int>,
    updatedAt: Option<int>)

  /** `User(**document)`: the `_id` coercion, then the field defaults
      (`is_active = True`, `created_at = utcnow()`, `updated_at = None`);
      `now` stands for the clock. */
  function FromDocument(d: Document, now: int): (r: Result<User, string>)
    ensures r.Success? <==> !d.id.OtherValue?
    ensures r.Failure? ==> r.error == "Invalid ObjectId"
    ensures r.Success? ==> (r.value.isActive <==> d.isActive != Some(false))
    ensures r.Success? ==> r.value.createdAt == (if d.createdAt.Some? then d.createdAt.value else now)
    ensures r.Success? ==> r.value.updatedAt == d.updatedAt
    ensures r.Success? ==> r.value.email == d.email && r.value.username == d.username
    ensures r.Success? ==> r.value.hashedPassword == d.hashedPassword
    ensures r.Success? && d.id.NoId? ==> r.value.id.None?
  {
    match ValidateObjectId(d.id)
    case Failure(e) => Failure(e)
    case Success(id) =>
      Success(User(id, d.email, d.username, d.hashedPassword,
                   d.isActive.GetOr(true), d.createdAt.GetOr(now), d.updatedAt))
  }

  /** A document holding only the required fields gets the model's defaults. */
  lemma Defaults(email: string, username: string, hashedPassword: string, now: int)
    ensures var r := FromDocument(Document(NoId, email, username, hashedPassword, None, None, None), now);
            r.Success? && r.value.isActive && r.value.updatedAt.None? && r.value.id.None? && r.value.createdAt == now
  {
  }
}

=== FILE: user_store.dfy ===
/** The `users` collection: a finite set of documents, the `find_one`
    lookups the server issues against it, and the unique indexes on `email`
    and `username` created at startup. */
module UserStore {
  import opened Wrappers
  import opened UserModel

  type Store = set<Document>

  /** The filters passed to `find_one`: `{"email": e}` and
      `{"$or": [{"email": e}, {"username": u}]}`. */
  datatype Query = ByEmail(email: string) | ByEmailOrUsername(email: string, username: string)

  predicate Matches(d: Document, q: Query) {
    match q
    case ByEmail(e) => d.email == e
    case ByEmailOrUsername(e, u) => d.email == e || d.username == u
  }

  /** `found` is a possible answer of `find_one(q)`: some matching document
      (which one is unspecified), or `None` exactly when nothing matches. */
  ghost predicate FindOne(store: Store, q: Query, found: Option<Document>) {
    match found
    case None => forall d :: d in store ==> !Matches(d, q)
    case Some(d) => d in store && Matches(d, q)
  }

  /** The unique indexes: no two documents share an email or a username. */
  ghost predicate UniqueKeys(store: Store) {
    forall a, b :: a in store && b in store && (a.email == b.email || a.username == b.username) ==> a == b
  }

  /** Under the unique indexes a lookup by email has exactly one answer. */
  lemma FindByEmailIsDeterministic(store: Store, email: string, f1: Option<Document>, f2: Option<Document>)
    requires UniqueKeys(store)
    requires FindOne(store, ByEmail(email), f1) && FindOne(store, ByEmail(email), f2)
    ensures f1 == f2
  {
  }
}

=== FILE: utf8.dfy ===
/** UTF-8 as Python's strict codec implements it: encoding of Unicode scalar
    values and the strict decoder that rejects overlong forms, encoded
    surrogates, code points above U+10FFFF and truncated sequences. */
module Utf8 {
  import opened Wrappers
  import opened Bytes

  predicate IsScalar(n: int) {
    0 <= n < 0xD800 || 0xE000 <= n < 0x11_0000
  }

  /** Number of bytes UTF-8 uses for the scalar value `n`. */
  function Width(n: int): nat {
    if n < 0x80 then 1 else if n < 0x800 then 2 else if n < 0x1_0000 then 3 else 4
  }

  function EncodeScalar(n: int): (bs: seq<Byte>)
    requires IsScalar(n)
    ensures |bs| == Width(n)
  {
    if n < 0x80 then [n]
    else if n < 0x800 then [0xC0 + n / 64, 0x80 + n % 64]
    else if n < 0x1_0000 then [0xE0 + n / 4096, 0x80 + (n / 64) % 64, 0x80 + n % 64]
    else [0xF0 + n / 262144, 0x80 + (n / 4096) % 64, 0x80 + (n / 64) % 64, 0x80 + n % 64]
  }

  /** `str.encode("utf-8")`. */
  function Encode(s: string): (bs: seq<Byte>)
    ensures |s| <= |bs| <= 4 * |s|
  {
    if s == [] then [] else EncodeScalar(s[0] as int) + Encode(s[1..])
  }

  predicate IsContinuation(b: Byte) {
    0x80 <= b < 0xC0
  }

  /** The range allowed for the second byte after the lead byte `b0`; it
      excludes overlong forms, encoded surrogates and values past U+10FFFF. */
  predicate SecondByteOk(b0: Byte, b1: Byte) {
    if b0 == 0xE0 then 0xA0 <= b1 < 0xC0
    else if b0 == 0xED then 0x80 <= b1 < 0xA0
    else if b0 == 0xF0 then 0x90 <= b1 < 0xC0
    else if b0 == 0xF4 then 0x80 <= b1 < 0x90
    else IsContinuation(b1)
  }

  /** Decodes the scalar value at the front of `bs`, with the number of bytes it spans. */
  function DecodeScalar(bs: seq<Byte>): (r: Option<(char, nat)>)
    ensures r.Some? ==> 1 <= r.value.1 <= |bs|
  {
    if |bs| == 0 then None
    else
      var b0: int := bs[0];
      if b0 < 0x80 then Some((b0 as char, 1))
      else if 0xC2 <= b0 < 0xE0 then
        if 2 <= |bs| && IsContinuation(bs[1])
        then Some((((b0 - 0xC0) * 64 + (bs[1] as int - 0x80)) as char, 2))
        else None
      else if 0xE0 <= b0 < 0xF0 then
        if 3 <= |bs| && SecondByteOk(b0, bs[1]) && IsContinuation(bs[2])
        then Some((((b0 - 0xE0) * 4096 + (bs[1] as int - 0x80) * 64 + (bs[2] as int - 0x80)) as char, 3))
        else None
      else if 0xF0 <= b0 < 0xF5 then
        if 4 <= |bs| && SecondByteOk(b0, bs[1]) && IsContinuation(bs[2]) && IsContinuation(bs[3])
        then Some((((b0 - 0xF0) * 262144 + (bs[1] as int - 0x80) * 4096 + (bs[2] as int - 0x80) * 64 + (bs[3] as int - 0x80)) as char, 4))
        else None
      else None
  }

  /** `bytes.decode("utf-8")`: `None` where Python raises `UnicodeDecodeError`. */
  function Decode(bs: seq<Byte>): (r: Option<string>)
    ensures r.Some? ==> |r.value| <= |bs|
    decreases |bs|
  {
    if bs == [] then Some([])
    else match DecodeScalar(bs)
      case None => None
      case Some((c, n)) =>
        match Decode(bs[n..])
        case None => None
        case Some(rest) => Some([c] + rest)
  }

  predicate IsValid(bs: seq<Byte>) {
    Decode(bs).Some?
  }

  lemma DecodeEncodeTwo(n: int, rest: seq<Byte>)
    requires 0x80 <= n < 0x800
    ensures DecodeScalar(EncodeScalar(n) + rest) == Some((n as char, 2))
  {
    var q, r := n / 64, n % 64;
    assert n == q * 64 + r && 2 <= q < 32 && 0 <= r < 64;
    var bs := EncodeScalar(n) + rest;
    assert bs[0] == 0xC0 + q && bs[1] == 0x80 + r;
  }

  lemma DecodeEncodeThree(n: int, rest: seq<Byte>)
    requires 0x800 <= n < 0x1_0000 && IsScalar(n)
    ensures DecodeScalar(EncodeScalar(n) + rest) == Some((n as char, 3))
  {
    var a, m := n / 4096, n % 4096;
    assert n == a * 4096 + m && 0 <= a < 16 && 0 <= m < 4096;
    var b, c := m / 64, m % 64;
    assert m == b * 64 + c && 0 <= b < 64 && 0 <= c < 64;
    assert (n / 64) % 64 == b by {
      assert n / 64 == a * 64 + b;
    }
    var bs := EncodeScalar(n) + rest;
    assert bs[0] == 0xE0 + a && bs[1] == 0x80 + b && bs[2] == 0x80 + c;
  }

  lemma DecodeEncodeFour(n: int, rest: seq<Byte>)
    requires 0x1_0000 <= n < 0x11_0000
    ensures DecodeScalar(EncodeScalar(n) + rest) == Some((n as char, 4))
  {
    var a, m := n / 262144, n % 262144;
    assert n == a * 262144 + m && 0 <= a < 5 && 0 <= m < 262144;
    var b, m2 := m / 4096, m % 4096;
    assert m == b * 4096 + m2 && 0 <= b < 64 && 0 <= m2 < 4096;
    var c, d := m2 / 64, m2 % 64;
    assert m2 == c * 64 + d && 0 <= c < 64 && 0 <= d < 64;
    assert (n / 4096) % 64 == b by {
      assert n / 4096 == a * 64 + b;
    }
    assert (n / 64) % 64 == c by {
      assert n / 64 == a * 4096 + b * 64 + c;
    }
    var bs := EncodeScalar(n) + rest;
    assert bs[0] == 0xF0 + a && bs[1] == 0x80 + b && bs[2] == 0x80 + c && bs[3] == 0x80 + d;
  }

  lemma DecodeEncodeScalar(c: char, rest: seq<Byte>)
    ensures DecodeScalar(EncodeScalar(c as int) + rest) == Some((c, Width(c as int)))
  {
    var n := c as int;
    if n < 0x80 {
    } else if n < 0x800 {
      DecodeEncodeTwo(n, rest);
    } else if n < 0x1_0000 {
      DecodeEncodeThree(n, rest);
    } else {
      DecodeEncodeFour(n, rest);
    }
  }

  /** Decoding what was encoded gives the original string back. */
  lemma {:induction false} DecodeEncode(s: string)
    ensures Decode(Encode(s)) == Some(s)
  {
    if s != [] {
      var head := EncodeScalar(s[0] as int);
      var tail := Encode(s[1..]);
      DecodeEncodeScalar(s[0], tail);
      assert (head + tail)[|head|..] == tail;
      DecodeEncode(s[1..]);
      assert [s[0]] + s[1..] == s;
    }
  }

  lemma EncodeDecodeTwo(bs: seq<Byte>)
    requires 2 <= |bs| && 0xC2 <= bs[0] < 0xE0 && IsContinuation(bs[1])
    ensures var n := (bs[0] as int - 0xC0) * 64 + (bs[1] as int - 0x80);
            0x80 <= n < 0x800 && EncodeScalar(n) == bs[..2]
  {
    var q, r := bs[0] as int - 0xC0, bs[1] as int - 0x80;
    var n := q * 64 + r;
    assert n / 64 == q && n % 64 == r;
  }

  lemma EncodeDecodeThree(bs: seq<Byte>)
    requires 3 <= |bs| && 0xE0 <= bs[0] < 0xF0 && SecondByteOk(bs[0], bs[1]) && IsContinuation(bs[2])
    ensures var n := (bs[0] as int - 0xE0) * 4096 + (bs[1] as int - 0x80) * 64 + (bs[2] as int - 0x80);
            0x800 <= n < 0x1_0000 && IsScalar(n) && EncodeScalar(n) == bs[..3]
  {
    var a, b, c := bs[0] as int - 0xE0, bs[1] as int - 0x80, bs[2] as int - 0x80;
    var n := a * 4096 + b * 64 + c;
    assert n / 64 == a * 64 + b && n % 64 == c;
    assert n / 4096 == a;
    assert (n / 64) % 64 == b;
  }

  lemma EncodeDecodeFour(bs: seq<Byte>)
    requires 4 <= |bs| && 0xF0 <= bs[0] < 0xF5 && SecondByteOk(bs[0], bs[1])
    requires IsContinuation(bs[2]) && IsContinuation(bs[3])
    ensures var n := (bs[0] as int - 0xF0) * 262144 + (bs[1] as int - 0x80) * 4096 + (bs[2] as int - 0x80) * 64 + (bs[3] as int - 0x80);
            0x1_0000 <= n < 0x11_0000 && EncodeScalar(n) == bs[..4]
  {
    var a, b, c, d := bs[0] as int - 0xF0, bs[1] as int - 0x80, bs[2] as int - 0x80, bs[3] as int - 0x80;
    var n := a * 262144 + b * 4096 + c * 64 + d;
    assert n / 64 == a * 4096 + b * 64 + c && n % 64 == d;
    assert n / 4096 == a * 64 + b;
    assert n / 262144 == a;
    assert (n / 64) % 64 == c;
    assert (n / 4096) % 64 == b;
  }

  /** The scalar value decoded at the front of `bs` encodes back to exactly
      the bytes it was read from: the decoder accepts no overlong form. */
  lemma EncodeDecodeScalar(bs: seq<Byte>)
    requires DecodeScalar(bs).Some?
    ensures EncodeScalar(DecodeScalar(bs).value.0 as int) == bs[..DecodeScalar(bs).value.1]
  {
    var b0: int := bs[0];
    if b0 < 0x80 {
    } else if b0 < 0xE0 {
      EncodeDecodeTwo(bs);
    } else if b0 < 0xF0 {
      EncodeDecodeThree(bs);
    } else {
      EncodeDecodeFour(bs);
    }
  }

  /** Whatever the decoder accepts is the encoding of what it returns. */
  lemma {:induction false} EncodeDecode(bs: seq<Byte>)
    requires Decode(bs).Some?
    ensures Encode(Decode(bs).value) == bs
    decreases |bs|
  {
    if bs != [] {
      var (c, n) := DecodeScalar(bs).value;
      EncodeDecodeScalar(bs);
      EncodeDecode(bs[n..]);
      var s := Decode(bs).value;
      assert s == [c] + Decode(bs[n..]).value;
      assert s[0] == c && s[1..] == Decode(bs[n..]).value;
      assert bs[..n] + bs[n..] == bs;
    }
  }

  /** Valid UTF-8 is exactly the set of encodings of strings. */
  lemma ValidIffEncoding(bs: seq<Byte>)
    ensures IsValid(bs) <==> exists s :: Encode(s) == bs
  {
    if IsValid(bs) {
      EncodeDecode(bs);
    }
    if s :| Encode(s) == bs {
      DecodeEncode(s);
    }
  }

  /** A string of one repeated character encodes to `Width` bytes per character. */
  lemma {:induction false} UniformLength(s: string, c: char)
    requires forall i :: 0 <= i < |s| ==> s[i] == c
    ensures |Encode(s)| == |s| * Width(c as int)
  {
    if s != [] {
      UniformLength(s[1..], c);
    }
  }
}

=== FILE: wrappers.dfy ===
/** Optional values and results shared by every module of the model. */
module Wrappers {

  /** A value that may be absent: `null`/`undefined` in the client, `None` in the server. */
  datatype Option<+T> = None | Some(value: T) {
    function GetOr(default: T): T {
      match this
      case Some(v) => v
      case None => default
    }
  }

  /** The outcome of an operation that either returns a value or raises an error. */
  datatype Result<+T, +E> = Success(value: T) | Failure(error: E)
}
